=== FILE: README.md ===
# Portfolio interaction core, modelled in Dafny

This project models the interaction logic of a single-page portfolio: the
pointer machines that turn a press into a click or a drag, the spring that
returns a tilted panel to flat, the placement and bookkeeping of the floating
section cards, the arrow drawn from a section row to its card, the recruiter's
skill selection, and the assembly and send decision of the recruiter's contact
message. Every operation is a pure function over immutable records; DOM reads
become inputs and DOM calls become outputs.

| module | file | models |
|---|---|---|
| `Wrappers` | wrappers.dfy | `null`/`undefined` (`Option`) and thrown errors (`Result`) |
| `Geometry` | geometry.dfy | viewport, points, boxes and the `Math.max(lo, Math.min(v, hi))` clamp |
| `Pointer` | pointer.dfy | press phase, pointer events, capture calls, the Euclidean drag threshold |
| `Draggable` | draggable.dfy | `src/hooks/useDraggable.js` — floating-card drag |
| `Spring` | spring.dfy | one frame of the damped spring shared by both tilt surfaces |
| `Tilt` | tilt.dfy | the clamped drag rotation and highlight shared by both tilt surfaces |
| `CvTilt` | cv_tilt.dfy | `src/components/CVPanel.jsx` — CV drag-to-rotate |
| `CertTilt` | cert_tilt.dfy | `src/components/CertificateModal.jsx` — certificate drag-to-rotate |
| `Seqs` | seqs.dfy | `filter(k => k !== x)` and duplicate-freedom |
| `Layout` | layout.dfy | `src/components/PortfolioLayout.jsx` — card placement and open-card set |
| `Connector` | connector.dfy | `src/components/ArrowLayer.jsx` — Bézier end and control points |
| `Portfolio` | portfolio.dfy | `src/context/PortfolioContext.jsx` — mode, skills, flip |
| `Checkout` | checkout.dfy | `src/components/CheckoutModal.jsx` — message text, payload, send outcome |

Modelling choices:

- The `pending`/`dragging` boolean pair becomes one `Phase` (`Idle`, `Pending`,
  `Dragging`); no handler in any variant sets both.
- `Math.hypot(dx, dy) < T` is stated exactly as `T > 0 && dx*dx + dy*dy < T*T`.
- JavaScript numbers are exact reals: client coordinates, card positions,
  rotations, rectangles and connector points. Only the viewport size is a
  whole number of pixels, as `innerWidth` and `innerHeight` are.
- Pointer capture is best-effort. `setPointerCapture` and
  `releasePointerCapture` become an `Effect` output (`Capture(id)`,
  `Release(id)`). Whether the capture call succeeded is a `captureOk` input
  (or `captureThrows` for the certificate frame).
- The three variants keep their own constants: thresholds 5 and 6, gains,
  clamp ranges, spring stiffness and damping, intensity divisors 14 and 16.
- Where the sources differ, so do the models:
  - only the certificate frame has no `disabled` and no button guard;
  - only it ends a press on any pointer's up or cancel;
  - only it has no `captured` flag;
  - only it lets a failing `setPointerCapture` throw out of the move handler.
    In that case the drag has started, but that move sets no rotation
    (`Step.threw`).
- Each pointer machine has a `Valid` invariant. `Init` establishes it and
  every handler keeps it. The handlers are stated for states that satisfy it.
- `useDraggable` does not clear `captured` on a new press; `CVPanel` does.
  So the floating card's invariant is "captured only during a press", and a
  pending press can still be flagged as captured (`CapturedWhilePending`).
  The CV panel's invariant is "captured only while dragging".
- While disabled, `useDraggable` and `CVPanel` bind no handlers. The models
  therefore ignore up and cancel as well as down and move while disabled.
- The placement rule clamps desktop cards into the viewport margins. Mobile
  cards are centred and stacked 392 px apart with no vertical clamp, so on a
  short phone a later card can start below the viewport. The code is followed
  here, not a blanket "always inside the viewport" reading.
- JavaScript truthiness is modelled as written:
  - `email || fallback` treats `""` as missing (`OrElse`);
  - `skillsList ? … : ""` treats `""` as missing (`Truthy`);
  - `skillsList ?? "none"` treats only `null` as missing.

## Model

| member | source | states |
|---|---|---|
| Geometry.Clamp | src/components/CVPanel.jsx:24 | never below the lower bound, never above a non-empty range's upper bound, the identity inside the range, the nearer bound outside it, and the lower bound whenever the range is empty |
| Geometry.ClampMonotone | src/hooks/useDraggable.js:40-41 | clamping keeps the order of two values |
| Pointer.BelowThreshold | src/hooks/useDraggable.js:101 | `Math.hypot(dx, dy) < T` without a square root: only a positive threshold can be undercut, and a movement below it is below it along each axis |
| Pointer.DiagonalIsEuclidean | src/hooks/useDraggable.js:100-101 | the threshold is a distance, not a box: a 5 px move on both axes leaves a 6 px threshold although each axis stays inside it; on a diagonal the test is `2d² < T²` |
| Pointer.BelowThresholdOneAxis | src/hooks/useDraggable.js:100-101 | a purely horizontal or vertical move is below the Euclidean threshold exactly when its length is |
| Draggable.Init | src/hooks/useDraggable.js:11-22 | a new hook is idle, holds no pointer and no capture, at the initial position |
| Draggable.Clamp | src/hooks/useDraggable.js:35-43 | the identity when clamping is off; otherwise at least 12 px from the top-left, at most `vw - w - 12` (and `vh - h - 12`) whenever the viewport fits the card with both margins, unchanged when already inside, exactly 12 when below the margin or when the viewport is too narrow (short) for the card, and exactly `vw - w - 12` (`vh - h - 12`) beyond the far edge |
| Draggable.ClampIdempotent | src/hooks/useDraggable.js:35-43 | clamping an already clamped position changes nothing |
| Draggable.ReleaseCapture | src/hooks/useDraggable.js:50-59 | a release call is made exactly when capture is held for a known pointer; the flag is then cleared; without capture, or with no pointer recorded, nothing changes |
| Draggable.ReleaseCaptureIdempotent | src/hooks/useDraggable.js:50-59 | releasing a second time issues no call and changes nothing |
| Draggable.Reset | src/hooks/useDraggable.js:61-67 | the session ends idle with no pointer and no capture, releasing first if capture was held; the position is kept |
| Draggable.PointerDown | src/hooks/useDraggable.js:69-88 | disabled, non-primary and interactive-target presses change nothing; otherwise the press is pending for that pointer with the start point and offset `client - pos` |
| Draggable.PointerMove | src/hooks/useDraggable.js:90-120 | moves when disabled, from another pointer or with no press change nothing; below the threshold a pending press stays put; the first move past it drags, requests capture once and records its success; a drag sets the clamped `client - offset` |
| Draggable.DragFollowsPointer | src/hooks/useDraggable.js:86-87 | after an accepted press, a drag puts the card at the press-time position plus the pointer displacement, clamped |
| Draggable.SmallMovesKeepClick | src/hooks/useDraggable.js:100-101 | any sequence of moves that stays within the threshold of the press point leaves state and position exactly unchanged and requests no capture |
| Draggable.DragStartsOnce | src/hooks/useDraggable.js:100-113 | over any move sequence a pending press becomes a drag at most once, capture is requested exactly once iff it did, and moves never end a press |
| Draggable.CrossingDrags | src/hooks/useDraggable.js:100-112 | conversely, if some move of the pressed pointer is at least the threshold from the press point, the enabled press ends up dragging with exactly one capture request |
| Draggable.PointerEnd | src/hooks/useDraggable.js:122-132 | up or cancel from the pressed pointer ends the press, releasing only if captured; another pointer's event, or any while disabled, changes nothing |
| Draggable.CapturedWhilePending | src/hooks/useDraggable.js:78-81 | a second press during a captured drag yields a pending press still flagged as captured |
| Draggable.Disable | src/hooks/useDraggable.js:134-141 | turning disabled on drops the press and the capture flag without a release call, keeping the position, press point and offset |
| Spring.Advance | src/components/CVPanel.jsx:70-89 | a frame never leaves the motion near rest without being exactly at rest; it is the plain integration unless that is near rest; rest is a fixed point |
| Spring.Integrate | src/components/CVPanel.jsx:70-77 | the velocity is pulled toward zero angle by `k` and damped by `c`, then the angle moves by the new velocity; from standstill each angle scales by `1 - k·c`; rest stays at rest |
| Spring.StepMirror | src/components/CertificateModal.jsx:30-38 | mirroring angles and velocities mirrors the spring step |
| CvTilt.Init | src/components/CVPanel.jsx:12-22 | the panel starts flat, still, idle, uncaptured, with the glow at the origin and dark |
| CvTilt.ReleaseCaptureIdempotent | src/components/CVPanel.jsx:27-37 | a second release issues no call and changes nothing |
| CvTilt.ReleaseCapture | src/components/CVPanel.jsx:27-37 | a release call happens exactly when capture is held for a known pointer, and clears the flag; with no pointer or no capture nothing changes |
| CvTilt.ResetPointerState | src/components/CVPanel.jsx:39-44 | the press is forgotten; rotation, snapshot and glow are kept |
| CvTilt.Disable | src/components/CVPanel.jsx:46-52 | turning disabled on releases held capture and leaves the panel idle with no pointer; rotation, snapshot and glow are kept |
| CvTilt.PointerDown | src/components/CVPanel.jsx:107-123 | disabled, non-primary and interactive presses change nothing; otherwise pending, not captured, with the press point and current rotation snapshotted; rotation and glow are kept |
| CvTilt.PointerMove | src/components/CVPanel.jsx:125-163 | ignored when disabled, for another pointer or when idle; a sub-6-px pending move changes nothing; crossing drags and requests capture once; a drag sets the rotation for gains 0.07/0.08, kept within ±8 (x) and ±10 (y) degrees, and the glow at the pointer over a 14-degree span |
| CvTilt.EndPointer | src/components/CVPanel.jsx:165-171 | the pressed pointer's up or cancel releases held capture and resets the pointer fields; rotation, the press snapshot and the glow are kept; any other pointer, or any while disabled, changes nothing |
| CvTilt.Tick | src/components/CVPanel.jsx:58-96 | frozen while dragging or disabled; otherwise exactly one spring frame with stiffness 0.12 and damping 0.82 and nothing else changed, which never leaves the panel lingering near flat without snapping |
| CvTilt.TickPullsTowardFlat | src/components/CVPanel.jsx:64-77 | from a still tilt, one frame moves each angle strictly toward zero without changing its sign |
| CvTilt.SmallMovesKeepClick | src/components/CVPanel.jsx:133-134 | any sequence of moves that stays within 6 px of the press point changes nothing and requests no capture |
| CvTilt.DragStartsOnce | src/components/CVPanel.jsx:126-145 | over any move sequence a pending press becomes a drag at most once, capture is requested exactly once iff it did, moves never end a press, an idle panel ignores them all and a drag never asks again |
| CvTilt.CrossingDrags | src/components/CVPanel.jsx:133-145 | conversely, if some move of the pressed pointer is 6 px or more from the press point, the enabled press ends up dragging with exactly one capture request |
| CvTilt.DisabledStaysInert | src/components/CVPanel.jsx:46-52 | after disabling, no sequence of moves changes anything until a new press |
| CvTilt.TenPixelDragScenario | src/components/CVPanel.jsx:133-151 | press at (100,100), move to (110,100): dragging, capture requested, y rotation 0.8 |
| CvTilt.SmallMoveScenario | src/components/CVPanel.jsx:133-134 | press at (100,100), move to (103,101): nothing changes |
| Tilt.Axis | src/components/CVPanel.jsx:150-151 | one axis of a drag stays within ±max, equals the press-time angle plus gain × travel when that is within range, and is exactly +max above it and -max below it |
| Tilt.AxisMonotone | src/components/CVPanel.jsx:150-151 | with a non-negative gain, more travel never gives less rotation |
| Tilt.DragRotation | src/components/CVPanel.jsx:150-151 | both angles stay within their limits, equal snapshot + gain × dx (y) and snapshot − gain × dy (x) when within range, and sit exactly at the exceeded limit otherwise; the certificate uses it with its own gains and limits |
| Tilt.DragRotationMonotone | src/components/CVPanel.jsx:150-151 | dragging further right never lowers the y rotation; dragging further down never raises the x rotation |
| Tilt.Intensity | src/components/CVPanel.jsx:160 | glow lies in [0,1], is zero exactly when flat, is total tilt / span up to the span, and saturates at 1 beyond (span 14 for the CV, 16 for the certificate) |
| Tilt.HoloAt | src/components/CVPanel.jsx:156-161 | the highlight sits at the pointer measured from the surface's top-left corner, with the tilt's glow |
| CertTilt.Init | src/components/CertificateModal.jsx:6-12 | the frame starts flat, still and idle, with the glow at the origin and dark |
| CertTilt.PointerDown | src/components/CertificateModal.jsx:56-64 | only interactive targets are refused; any other press becomes pending with the press point and rotation snapshotted; rotation and glow are kept |
| CertTilt.PointerMove | src/components/CertificateModal.jsx:66-95 | ignored for another pointer or when idle; a sub-6-px pending move changes nothing; crossing drags and requests capture; a throwing request leaves the drag started with this move's rotation skipped; otherwise a drag sets the rotation for gains 0.08/0.09, within ±10 (x) and ±12 (y) degrees, and the glow over a 16-degree span |
| CertTilt.EndPointer | src/components/CertificateModal.jsx:97-101 | up or cancel from any pointer ends the press; rotation is kept |
| CertTilt.Tick | src/components/CertificateModal.jsx:20-45 | frozen while dragging; otherwise exactly one spring frame with stiffness 0.14 and damping 0.80 and nothing else changed, never lingering near flat |
| CertTilt.TickPullsTowardFlat | src/components/CertificateModal.jsx:25-34 | from a still tilt, one frame moves each angle strictly toward zero without changing its sign |
| CertTilt.DragStartsOnce | src/components/CertificateModal.jsx:73-78 | over any move sequence a pending press becomes a drag at most once and requests capture exactly once iff it did |
| CertTilt.SmallMovesKeepClick | src/components/CertificateModal.jsx:73-74 | any sequence of moves that stays within 6 px of the press point changes nothing and requests no capture |
| CertTilt.CrossingDrags | src/components/CertificateModal.jsx:73-78 | conversely, if some move of the pressed pointer is 6 px or more from the press point, the press ends up dragging with exactly one capture request, whether or not that request threw |
| CertTilt.DraggingStays | src/components/CertificateModal.jsx:66-80 | moves never end a drag and never request capture again |
| Seqs.RemoveAll | src/components/PortfolioLayout.jsx:30 | the value is gone, nothing new appears, every other element survives |
| Seqs.RemoveAt | src/components/PortfolioLayout.jsx:30 | in a duplicate-free list, removing one element closes its gap and keeps the rest in order |
| Seqs.RemovePreservesNoDup | src/context/PortfolioContext.jsx:18 | removal keeps a list duplicate-free |
| Layout.PlaceCard | src/components/PortfolioLayout.jsx:51-85 | height 380 and width `min(440, vw-24)`; mobile cards at the whole-pixel x `max(0, floor((vw - w) / 2))`, so centred to within a pixel; desktop cards 12 px inside both side margins, below the top margin, above the bottom margin when the viewport is tall enough; a desktop card's top is its base height plus 398 px per earlier card on its side when that fits, 12 when it would be above the top margin or the viewport is shorter than 404 px, and `vh - 392` when it would overflow the bottom of a tall enough viewport; even slots right of centre by at most 330 px, odd slots left |
| Layout.BaseY | src/components/PortfolioLayout.jsx:67-71 | a desktop card starts 40 px above its section row when the row element exists, and at 170 px otherwise |
| Layout.MobileStacking | src/components/PortfolioLayout.jsx:56-60 | on mobile the first card is at y = 80 and each next slot is 392 px lower in the same column |
| Layout.DesktopStacking | src/components/PortfolioLayout.jsx:73-83 | on desktop the next card on the same side shares the column, is never higher, and is 398 px lower unless the viewport clamp intervenes |
| Layout.DesktopScenario | src/components/PortfolioLayout.jsx:65-83 | a 1280 x 800 viewport with the row at 300 places slot 0 at (828, 260) |
| Layout.ModalOpen | src/components/PortfolioLayout.jsx:27 | a dialog covers the page when a certificate is shown or checkout is open, and only then |
| Layout.OnSectionClick | src/components/PortfolioLayout.jsx:87-103 | under a dialog or for an open card nothing changes; otherwise the key is appended once and only its rectangle is added, placed for its slot |
| Layout.CloseSectionCard | src/components/PortfolioLayout.jsx:29-36 | the key and its rectangle are gone; every other key stays open and keeps its rectangle |
| Layout.CloseKeepsOrder | src/components/PortfolioLayout.jsx:30 | closing the card at position i leaves the other keys in their order |
| Layout.OpenThenCloseRestores | src/components/PortfolioLayout.jsx:29-36 | opening a closed card and closing it again restores the layout exactly |
| Layout.CloseAllCards | src/components/PortfolioLayout.jsx:38-41 | no open keys and no rectangles remain |
| Layout.OnFlip | src/components/PortfolioLayout.jsx:43-49 | a flip closes all cards and both dialogs |
| Layout.OnRectChange | src/components/PortfolioLayout.jsx:105-107 | only that key's rectangle changes; the open list is untouched; bookkeeping stays consistent for an open key |
| Connector.Connect | src/components/ArrowLayer.jsx:1-18 | no curve when either box is missing; otherwise it joins the row's facing edge at mid-height to the card's facing edge at mid-height, with control points 120 px along the travel direction |
| Connector.CurveFacesCard | src/components/ArrowLayer.jsx:5-18 | for a card wholly right (left) of the row, the curve runs rightward (leftward) from the row's right (left) edge to the card's left (right) edge, leaving and arriving horizontally |
| Connector.RowEndIgnoresCardHeight | src/components/ArrowLayer.jsx:7-18 | moving the card vertically moves only the card end of the curve |
| Portfolio.Initial | src/context/PortfolioContext.jsx:12-14 | developer mode, nothing selected, not flipped |
| Portfolio.UsePortfolio | src/context/PortfolioContext.jsx:5-9 | reading the context succeeds exactly inside a provider and otherwise fails with the fixed message |
| Portfolio.ToggleSkill | src/context/PortfolioContext.jsx:16-20 | the skill's membership flips; an absent skill is appended; other skills are neither added nor lost |
| Portfolio.ToggleSkillNoDup | src/context/PortfolioContext.jsx:16-20 | toggling keeps the selection duplicate-free |
| Portfolio.ToggleTwiceRestores | src/context/PortfolioContext.jsx:18 | toggling an unselected skill twice restores the selection exactly |
| Portfolio.ToggleSelectedRemovesInPlace | src/context/PortfolioContext.jsx:18 | deselecting closes the gap in order; reselecting moves the skill to the end |
| Portfolio.ClearSkills | src/context/PortfolioContext.jsx:22 | the selection becomes empty; mode and flip are kept |
| Checkout.SplitJoin | src/components/CheckoutModal.jsx:37 | splitting a newline-joined list of single-line strings at line breaks gives the list back |
| Checkout.JoinLines | src/components/CheckoutModal.jsx:37 | no lines join to the empty text; otherwise the text starts with the first line and ends with the last, with a line break right after the first when there are several |
| Checkout.SkillsList | src/components/CheckoutModal.jsx:35-38 | null exactly when nothing is selected, and then also the only falsy case; otherwise it starts with the first skill's bullet |
| Checkout.SkillsListLines | src/components/CheckoutModal.jsx:35-38 | the list's lines are exactly `- skill` for each selected skill, in selection order |
| Checkout.PresetBody | src/components/CheckoutModal.jsx:40-49 | starts with the greeting, ends with the contact address (or placeholder) and sign-off, carries the skills paragraph right after the greeting iff there is a skills list, and has exactly the length of those parts, so nothing else is in it |
| Checkout.CustomBody | src/components/CheckoutModal.jsx:51-58 | starts with the message (or placeholder), ends with the address (or placeholder), carries the liked-skills block right after the message iff there is a skills list, and has exactly the length of those parts, so nothing else is in it |
| Checkout.Body | src/components/CheckoutModal.jsx:60 | the preset body in preset mode, the custom body otherwise |
| Checkout.BuildPayload | src/components/CheckoutModal.jsx:71-77 | the reply-to is the recruiter email or the no-reply default, never empty; selected skills default to "none" only when there is no list |
| Checkout.HandleSend | src/components/CheckoutModal.jsx:64-91 | success exactly when the response is ok with `success` the string "true": skills cleared and marked sent; otherwise skills kept and the error is the server message, the submission fallback, or the network fallback when the request fails or an ok body is `null` |
| Checkout.SendThenRebuild | src/components/CheckoutModal.jsx:80-85 | an accepted send empties the selection as the context's `clearSkills` does, so the next skills list is null and the next payload says "none"; a refused send keeps the selection, its list and its payload skills |

## Left out

- Floating-point rounding: every JavaScript number is an exact real, so the rounding of coordinates, of the drag rotation (`dx * 0.08`), of the intensity division and of the spring arithmetic is not modelled.
- The `requestAnimationFrame` loop and spring convergence over many frames: only one frame is modelled, over exact reals rather than floating point.
- `useTilt` (src/hooks/useTilt.js): a floating-point mouse-to-transform mapping wired to DOM listeners.
- The `holoStyle` gradient strings, `transform` strings and all inline styles: rendering only.
- `useDraggable`'s `onChange` effect and its re-sync to a changed `initial` position: React effect wiring with no state-machine content.
- DOM queries become inputs: interactive target, button, client point, element origin, row top, viewport size, capture success. The elements themselves (`wrapRef`, `frameRef`, `currentTarget`) are taken to be mounted whenever a handler runs.
- `fetch`, JSON parsing, `encodeMailto` (built on `encodeURIComponent`), the mail link and the Escape-key listener in CheckoutModal: network and browser plumbing. Only the payload and the decision on the response fields are modelled.
- Checkout.HandleSend: a server `message` that is not a string is not modelled (it is an `Option<string>`).
- Connector.Connect: takes the row's `left`/`right`/`top` to be `x`, `x + w` and `y`, as they are for boxes with non-negative size.
- ModalPortal, ModeToggle, SocialNav, CartButton, FloatingCard (it only supplies its 440 x 360 size to the hook), App, RecruiterPanel and the section data: rendering and static content.

=== FILE: cert_tilt.dfy ===
/** The certificate frame's drag-to-rotate interaction. It follows the CV
    panel's scheme with its own constants, but has no disabled or button
    guard, keeps no capture flag, ends a press on any pointer's up or cancel,
    and lets a failing capture request throw out of the move handler. */
module CertTilt {
  import opened Wrappers
  import opened Geometry
  import opened Pointer
  import opened Spring
  import opened Tilt

  const DragThreshold: real := 6.0
  /** Spring stiffness and damping of the certificate frame. */
  const K: real := 0.14
  const C: real := 0.80
  /** 0.08 and 0.09 degrees per pixel of vertical and horizontal travel,
      at most 10 degrees about the horizontal axis and 12 about the vertical. */
  const FrameLimits: Limits := Limits(0.08, 0.09, 10.0, 12.0)
  /** Degrees of total tilt at which the highlight is at full strength. */
  const GlowSpan: real := 16.0

  datatype CertState = CertState(
    phase: Phase,
    pointerId: Option<int>,
    start: Snapshot,
    motion: Motion,
    holo: Holo)

  /** A handler's outcome. `threw` records that `setPointerCapture` threw
      out of the move handler, which skips the rest of that handler. */
  datatype Step = Step(state: CertState, effect: Effect, threw: bool)

  function Init(): (s: CertState)
    ensures s.phase == Idle && s.pointerId == None && s.motion == Rest
    ensures s.holo == Holo(0.0, 0.0, 0.0)
  {
    CertState(Idle, None, Snapshot(0.0, 0.0, 0.0, 0.0), Rest, Holo(0.0, 0.0, 0.0))
  }

  ghost predicate Valid(s: CertState)
  {
    s.phase == Idle <==> s.pointerId == None
  }

  /** Only interactive targets are refused; any button of any pointer
      starts a press, replacing one in progress. */
  function PointerDown(s: CertState, e: PointerEvent): (r: CertState)
    requires Valid(s)
    ensures Valid(r)
    ensures e.interactive ==> r == s
    ensures !e.interactive ==>
              && r.phase == Pending && r.pointerId == Some(e.pointerId)
              && r.start == Snapshot(e.clientX, e.clientY, s.motion.rot.rx, s.motion.rot.ry)
              && r.motion == s.motion
    ensures r.holo == s.holo
  {
    if e.interactive then s
    else s.(phase := Pending, pointerId := Some(e.pointerId),
            start := Snapshot(e.clientX, e.clientY, s.motion.rot.rx, s.motion.rot.ry))
  }

  predicate Live(s: CertState, e: PointerEvent)
  {
    s.phase != Idle && s.pointerId == Some(e.pointerId)
  }

  /** A move: ignored for another pointer or with no press; a pending press
      below the threshold stays pending; crossing it starts the drag and
      requests capture. When that request throws, the drag has started but
      this move sets no rotation. */
  function PointerMove(s: CertState, e: PointerEvent, captureThrows: bool, frame: Point): (r: Step)
    requires Valid(s)
    ensures Valid(r.state)
    ensures !Live(s, e) ==> r == Step(s, NoEffect, false)
    ensures Live(s, e) && s.phase == Pending &&
            BelowThreshold(e.clientX - s.start.x, e.clientY - s.start.y, DragThreshold) ==>
              r == Step(s, NoEffect, false)
    ensures Live(s, e) && s.phase == Pending &&
            !BelowThreshold(e.clientX - s.start.x, e.clientY - s.start.y, DragThreshold) ==>
              r.state.phase == Dragging && r.effect == Capture(e.pointerId) && r.threw == captureThrows
    ensures s.phase == Dragging ==> r.effect == NoEffect && !r.threw && r.state.phase == Dragging
    ensures r.threw ==> r.state == s.(phase := Dragging)
    ensures Live(s, e) && r.state.phase == Dragging && !r.threw ==>
              && r.state.motion.rot == DragRotation(FrameLimits, s.start, e.clientX - s.start.x, e.clientY - s.start.y)
              && r.state.motion.vel == s.motion.vel
              && r.state.holo == HoloAt(e.clientX, e.clientY, frame, r.state.motion.rot, GlowSpan)
    ensures Live(s, e) && r.state.phase == Dragging && !r.threw ==>
              -10.0 <= r.state.motion.rot.rx <= 10.0 && -12.0 <= r.state.motion.rot.ry <= 12.0
    ensures r.state.phase != Dragging ==> r.state.motion == s.motion
    ensures r.state.pointerId == s.pointerId && r.state.start == s.start
  {
    if !Live(s, e) then Step(s, NoEffect, false)
    else
      var dx := e.clientX - s.start.x;
      var dy := e.clientY - s.start.y;
      if s.phase == Pending && BelowThreshold(dx, dy, DragThreshold) then Step(s, NoEffect, false)
      else if s.phase == Pending && captureThrows then Step(s.(phase := Dragging), Capture(e.pointerId), true)
      else
        var effect := if s.phase == Pending then Capture(e.pointerId) else NoEffect;
        var rot := DragRotation(FrameLimits, s.start, dx, dy);
        var holo := HoloAt(e.clientX, e.clientY, frame, rot, GlowSpan);
        Step(s.(phase := Dragging, motion := s.motion.(rot := rot), holo := holo), effect, false)
  }

  /** `pointerup` and `pointercancel`: whichever pointer it is, the press
      ends. Capture is never released explicitly. */
  function EndPointer(s: CertState): (r: CertState)
    ensures Valid(r)
    ensures r.phase == Idle && r.pointerId == None
    ensures r.motion == s.motion && r.start == s.start && r.holo == s.holo
  {
    s.(phase := Idle, pointerId := None)
  }

  /** One animation frame: frozen while dragging, otherwise one spring step. */
  function Tick(s: CertState): (r: CertState)
    ensures s.phase == Dragging ==> r == s
    ensures s.phase != Dragging ==> r == s.(motion := Advance(s.motion, K, C))
    ensures s.phase != Dragging ==> r.motion == Rest || !NearRest(r.motion)
    ensures s.motion == Rest ==> r.motion == Rest
  {
    if s.phase == Dragging then s
    else s.(motion := Advance(s.motion, K, C))
  }

  /** Released from a still tilt, the first frame moves the frame strictly
      toward flat without overshooting. */
  lemma TickPullsTowardFlat(s: CertState)
    requires s.phase != Dragging
    requires s.motion.vel == Vel(0.0, 0.0)
    ensures var r := Tick(s).motion.rot;
            && (r.rx == 0.0 || (r.rx > 0.0 <==> s.motion.rot.rx > 0.0))
            && (r.ry == 0.0 || (r.ry > 0.0 <==> s.motion.rot.ry > 0.0))
            && (s.motion.rot.rx != 0.0 ==> Abs(r.rx) < Abs(s.motion.rot.rx))
            && (s.motion.rot.ry != 0.0 ==> Abs(r.ry) < Abs(s.motion.rot.ry))
  {
    var n := Integrate(s.motion, K, C);
    assert n.rot.rx == 0.888 * s.motion.rot.rx;
    assert n.rot.ry == 0.888 * s.motion.rot.ry;
    assert Advance(s.motion, K, C) == Rest || Advance(s.motion, K, C) == n;
  }

  /** Feed a sequence of moves to the frame, counting capture requests. */
  function RunMoves(s: CertState, es: seq<PointerEvent>, captureThrows: bool, frame: Point): (r: (CertState, nat))
    requires Valid(s)
    ensures Valid(r.0)
    decreases |es|
  {
    if |es| == 0 then (s, 0)
    else
      var st := PointerMove(s, es[0], captureThrows, frame);
      var rest := RunMoves(st.state, es[1..], captureThrows, frame);
      (rest.0, rest.1 + if st.effect.Capture? then 1 else 0)
  }

  /** A press whose pointer stays within six pixels of where it went down is
      still a click: nothing changes and capture is never requested. */
  lemma {:induction false} SmallMovesKeepClick(s: CertState, es: seq<PointerEvent>, captureThrows: bool,
                                               frame: Point)
    requires Valid(s) && s.phase == Pending
    requires forall i :: 0 <= i < |es| && Some(es[i].pointerId) == s.pointerId ==>
               BelowThreshold(es[i].clientX - s.start.x, es[i].clientY - s.start.y, DragThreshold)
    ensures RunMoves(s, es, captureThrows, frame) == (s, 0)
    decreases |es|
  {
    if |es| > 0 {
      SmallMovesKeepClick(s, es[1..], captureThrows, frame);
    }
  }

  /** Conversely, once the pressed pointer has been six pixels or more from
      the press point on some move, the press has become a drag and capture
      was requested exactly once, whether or not the request threw. */
  lemma {:induction false} CrossingDrags(s: CertState, es: seq<PointerEvent>, captureThrows: bool,
                                         frame: Point, i: nat)
    requires Valid(s) && s.phase == Pending
    requires i < |es| && Some(es[i].pointerId) == s.pointerId
    requires !BelowThreshold(es[i].clientX - s.start.x, es[i].clientY - s.start.y, DragThreshold)
    ensures var r := RunMoves(s, es, captureThrows, frame);
            r.0.phase == Dragging && r.1 == 1
    decreases |es|
  {
    var st := PointerMove(s, es[0], captureThrows, frame);
    if st.state.phase == Dragging {
      DraggingStays(st.state, es[1..], captureThrows, frame);
    } else {
      assert i > 0;
      CrossingDrags(st.state, es[1..], captureThrows, frame, i - 1);
    }
  }

  /** A pending press becomes a drag at most once however the moves go, and
      capture is requested exactly when it does. */
  lemma {:induction false} DragStartsOnce(s: CertState, es: seq<PointerEvent>, captureThrows: bool, frame: Point)
    requires Valid(s) && s.phase == Pending
    ensures var r := RunMoves(s, es, captureThrows, frame);
            r.0.phase != Idle && r.1 <= 1 && (r.1 == 1 <==> r.0.phase == Dragging)
    decreases |es|
  {
    if |es| > 0 {
      var st := PointerMove(s, es[0], captureThrows, frame);
      if st.state.phase == Dragging {
        DraggingStays(st.state, es[1..], captureThrows, frame);
      } else {
        DragStartsOnce(st.state, es[1..], captureThrows, frame);
      }
    }
  }

  /** Moves never end a drag and never request capture again. */
  lemma {:induction false} DraggingStays(s: CertState, es: seq<PointerEvent>, captureThrows: bool, frame: Point)
    requires Valid(s) && s.phase == Dragging
    ensures var r := RunMoves(s, es, captureThrows, frame);
            r.0.phase == Dragging && r.1 == 0
    decreases |es|
  {
    if |es| > 0 {
      DraggingStays(PointerMove(s, es[0], captureThrows, frame).state, es[1..], captureThrows, frame);
    }
  }
}

=== FILE: checkout.dfy ===
/** The recruiter checkout dialog's message assembly and send decision:
    the bulleted skills list, the preset and custom message bodies, the
    JSON payload's defaults and how the form submission's response is
    judged. */
module Checkout {
  import opened Wrappers
  import Portfolio

  const EmailPlaceholder := "[your email here]"
  const MessagePlaceholder := "[Write your message here]"
  const DefaultReplyTo := "no-reply@recruiter.com"
  const NoSkills := "none"
  const SubmissionFailed := "Submission failed. Use the email fallback below."
  const NetworkFailed := "Network error. Use the email fallback below."

  const PresetGreeting := "Hi,\n\nI am a recruiter and I'd like to connect.\n\n"
  const PresetSkillsIntro := "I was interested in the following skills:\n"
  const PresetContact := "Contact me via: "
  const PresetClosing := "\n\nBest regards,\n[Recruiter Name]"
  const CustomSkillsIntro := "\n\nSkills I liked:\n"
  const CustomContact := "\n\nMy email: "

  predicate StartsWith(s: string, p: string)
  {
    |p| <= |s| && s[..|p|] == p
  }

  predicate EndsWith(s: string, p: string)
  {
    |p| <= |s| && s[|s| - |p|..] == p
  }

  /** `p` occurs in `s` starting at index `i`. */
  predicate OccursAt(s: string, i: nat, p: string)
  {
    i + |p| <= |s| && s[i..i + |p|] == p
  }

  /** JavaScript truthiness of a string that may be `null`. */
  predicate Truthy(s: Option<string>)
  {
    s.Some? && s.value != ""
  }

  /** `value || fallback` for a string. */
  function OrElse(value: string, fallback: string): (r: string)
    ensures value != "" ==> r == value
    ensures value == "" ==> r == fallback
  {
    if value == "" then fallback else value
  }

  /** `lines.join("\n")`: the text starts with the first line and ends
      with the last. `SplitJoin` shows it is undone by `SplitLines`. */
  function JoinLines(lines: seq<string>): (r: string)
    ensures |lines| == 0 ==> r == ""
    ensures |lines| >= 1 ==> StartsWith(r, lines[0]) && EndsWith(r, lines[|lines| - 1])
    ensures |lines| >= 2 ==> |r| > |lines[0]| && r[|lines[0]|] == '\n'
    decreases |lines|
  {
    if |lines| == 0 then ""
    else if |lines| == 1 then
      assert lines[0][..|lines[0]|] == lines[0];
      assert lines[0][|lines[0]| - |lines[0]|..] == lines[0];
      lines[0]
    else
      var head := lines[0] + "\n";
      var rest := JoinLines(lines[1..]);
      var r := head + rest;
      assert r[..|lines[0]|] == lines[0];
      assert r[|r| - |lines[|lines| - 1]|..] == rest[|rest| - |lines[|lines| - 1]|..];
      r
  }

  /** `s.split("\n")`: the pieces between line breaks, always at least one. */
  function SplitLines(s: string): (r: seq<string>)
    ensures |r| >= 1
    decreases |s|
  {
    if |s| == 0 then [""]
    else
      var rest := SplitLines(s[1..]);
      if s[0] == '\n' then [""] + rest
      else [[s[0]] + rest[0]] + rest[1..]
  }

  lemma {:induction false} SplitSingleLine(a: string)
    requires '\n' !in a
    ensures SplitLines(a) == [a]
    decreases |a|
  {
    if |a| > 0 {
      SplitSingleLine(a[1..]);
      assert [a[0]] + a[1..] == a;
    }
  }

  lemma {:induction false} SplitFirstLine(a: string, b: string)
    requires '\n' !in a
    ensures SplitLines(a + "\n" + b) == [a] + SplitLines(b)
    decreases |a|
  {
    var s := a + "\n" + b;
    if |a| == 0 {
      assert s == "\n" + b;
      assert s[1..] == b;
    } else {
      assert s[1..] == a[1..] + "\n" + b;
      SplitFirstLine(a[1..], b);
      assert [a[0]] + a[1..] == a;
    }
  }

  /** Splitting a joined list of single-line strings gives the list back. */
  lemma {:induction false} SplitJoin(lines: seq<string>)
    requires |lines| >= 1
    requires forall i :: 0 <= i < |lines| ==> '\n' !in lines[i]
    ensures SplitLines(JoinLines(lines)) == lines
    decreases |lines|
  {
    if |lines| == 1 {
      SplitSingleLine(lines[0]);
    } else {
      SplitJoin(lines[1..]);
      SplitFirstLine(lines[0], JoinLines(lines[1..]));
      assert [lines[0]] + lines[1..] == lines;
    }
  }

  function Bullets(skills: seq<string>): (r: seq<string>)
    ensures |r| == |skills|
    ensures forall i :: 0 <= i < |skills| ==> r[i] == "- " + skills[i]
  {
    seq(|skills|, i requires 0 <= i < |skills| => "- " + skills[i])
  }

  /** The selected skills as one `- skill` line each, in selection order, or
      `null` when none are selected. */
  function SkillsList(skills: seq<string>): (r: Option<string>)
    ensures r.None? <==> |skills| == 0
    ensures Truthy(r) <==> |skills| > 0
    ensures r.Some? ==> StartsWith(r.value, "- " + skills[0])
  {
    if |skills| == 0 then None
    else
      var lines := Bullets(skills);
      Some(JoinLines(lines))
  }

  /** When no skill name contains a line break, the list's lines are exactly
      `- skill` for each selected skill, in order. */
  lemma SkillsListLines(skills: seq<string>)
    requires |skills| > 0
    requires forall i :: 0 <= i < |skills| ==> '\n' !in skills[i]
    ensures SplitLines(SkillsList(skills).value) == Bullets(skills)
  {
    var lines := Bullets(skills);
    forall i | 0 <= i < |lines| ensures '\n' !in lines[i] {
      assert lines[i] == "- " + skills[i];
    }
    SplitJoin(lines);
  }

  /** The ready-made message: greeting, the skills paragraph when there is a
      skills list, the contact address (or a placeholder), sign-off. */
  function PresetBody(skillsList: Option<string>, email: string): (r: string)
    ensures StartsWith(r, PresetGreeting)
    ensures EndsWith(r, PresetContact + OrElse(email, EmailPlaceholder) + PresetClosing)
    ensures OccursAt(r, |PresetGreeting|, PresetSkillsIntro) <==> Truthy(skillsList)
    ensures Truthy(skillsList) ==>
              OccursAt(r, |PresetGreeting| + |PresetSkillsIntro|, skillsList.value + "\n\n")
    ensures |r| == |PresetGreeting|
                   + (if Truthy(skillsList) then |PresetSkillsIntro| + |skillsList.value| + 2 else 0)
                   + |PresetContact + OrElse(email, EmailPlaceholder) + PresetClosing|
  {
    var skills := if Truthy(skillsList) then PresetSkillsIntro + skillsList.value + "\n\n" else "";
    var tail := PresetContact + OrElse(email, EmailPlaceholder) + PresetClosing;
    PresetShape(skills, tail, skillsList);
    PresetGreeting + skills + tail
  }

  lemma PresetShape(skills: string, tail: string, skillsList: Option<string>)
    requires skills == if Truthy(skillsList) then PresetSkillsIntro + skillsList.value + "\n\n" else ""
    requires StartsWith(tail, PresetContact)
    ensures var r := PresetGreeting + skills + tail;
            && StartsWith(r, PresetGreeting) && EndsWith(r, tail)
            && (OccursAt(r, |PresetGreeting|, PresetSkillsIntro) <==> Truthy(skillsList))
            && (Truthy(skillsList) ==>
                  OccursAt(r, |PresetGreeting| + |PresetSkillsIntro|, skillsList.value + "\n\n"))
  {
    var r := PresetGreeting + skills + tail;
    assert r[..|PresetGreeting|] == PresetGreeting;
    assert r[|r| - |tail|..] == tail;
    if Truthy(skillsList) {
      assert r[|PresetGreeting|..|PresetGreeting| + |PresetSkillsIntro|] == PresetSkillsIntro;
      var i := |PresetGreeting| + |PresetSkillsIntro|;
      assert r[i..i + |skillsList.value + "\n\n"|] == skillsList.value + "\n\n";
    } else {
      assert r[|PresetGreeting|] == tail[0] == 'C';
      assert PresetSkillsIntro[0] == 'I';
    }
  }

  /** The recruiter's own message (or a placeholder), the liked skills when
      there is a skills list, then the contact address (or a placeholder). */
  function CustomBody(message: string, skillsList: Option<string>, email: string): (r: string)
    ensures StartsWith(r, OrElse(message, MessagePlaceholder))
    ensures EndsWith(r, CustomContact + OrElse(email, EmailPlaceholder))
    ensures OccursAt(r, |OrElse(message, MessagePlaceholder)|, CustomSkillsIntro) <==> Truthy(skillsList)
    ensures Truthy(skillsList) ==>
              OccursAt(r, |OrElse(message, MessagePlaceholder)| + |CustomSkillsIntro|, skillsList.value)
    ensures |r| == |OrElse(message, MessagePlaceholder)|
                   + (if Truthy(skillsList) then |CustomSkillsIntro| + |skillsList.value| else 0)
                   + |CustomContact + OrElse(email, EmailPlaceholder)|
  {
    var head := OrElse(message, MessagePlaceholder);
    var skills := if Truthy(skillsList) then CustomSkillsIntro + skillsList.value else "";
    var tail := CustomContact + OrElse(email, EmailPlaceholder);
    CustomShape(head, skills, tail, skillsList);
    head + skills + tail
  }

  lemma CustomShape(head: string, skills: string, tail: string, skillsList: Option<string>)
    requires skills == if Truthy(skillsList) then CustomSkillsIntro + skillsList.value else ""
    requires StartsWith(tail, CustomContact)
    ensures var r := head + skills + tail;
            && StartsWith(r, head) && EndsWith(r, tail)
            && (OccursAt(r, |head|, CustomSkillsIntro) <==> Truthy(skillsList))
            && (Truthy(skillsList) ==> OccursAt(r, |head| + |CustomSkillsIntro|, skillsList.value))
  {
    var r := head + skills + tail;
    assert r[..|head|] == head;
    assert r[|r| - |tail|..] == tail;
    if Truthy(skillsList) {
      assert r[|head|..|head| + |CustomSkillsIntro|] == CustomSkillsIntro;
      var i := |head| + |CustomSkillsIntro|;
      assert r[i..i + |skillsList.value|] == skillsList.value;
    } else {
      assert r[|head| + 2] == tail[2] == 'M';
      assert CustomSkillsIntro[2] == 'S';
    }
  }

  datatype EmailMode = Custom | Preset

  /** The body that is sent and offered in the mail link. */
  function Body(mode: EmailMode, message: string, skillsList: Option<string>, email: string): (r: string)
    ensures mode == Preset ==> StartsWith(r, PresetGreeting)
    ensures mode == Custom ==> StartsWith(r, OrElse(message, MessagePlaceholder))
    ensures mode == Preset ==> r == PresetBody(skillsList, email)
    ensures mode == Custom ==> r == CustomBody(message, skillsList, email)
  {
    if mode == Preset then PresetBody(skillsList, email) else CustomBody(message, skillsList, email)
  }

  /** The JSON object posted to the form service. */
  datatype Payload = Payload(subject: string, email: string, message: string,
                             selectedSkills: string, captcha: string)

  function BuildPayload(subject: string, email: string, body: string, skillsList: Option<string>): (r: Payload)
    ensures r.subject == subject && r.message == body
    ensures r.email == (if email == "" then DefaultReplyTo else email)
    ensures r.email != ""
    ensures skillsList.None? ==> r.selectedSkills == NoSkills
    ensures skillsList.Some? ==> r.selectedSkills == skillsList.value
    ensures r.captcha == "false"
  {
    Payload(subject, OrElse(email, DefaultReplyTo), body, skillsList.GetOr(NoSkills), "false")
  }

  /** A JSON value as far as the decision needs it. */
  datatype Json = JString(s: string) | JBool(b: bool) | JOther

  /** The parsed response object; a body that is not JSON parses as `{}`. */
  datatype ResponseData = ResponseData(success: Option<Json>, message: Option<string>)

  /** `data` is `None` when the body is the JSON literal `null`. */
  datatype Response = NetworkFailure | Http(ok: bool, data: Option<ResponseData>)

  /** The dialog's send-related state, with the context's selected skills. */
  datatype SendState = SendState(selectedSkills: seq<string>, sent: bool, submitting: bool,
                                 submitError: Option<string>)

  /** The service accepted the message: a 2xx status and `success` equal to
      the string "true" (a JSON `true` does not count). */
  predicate Accepted(resp: Response)
  {
    resp.Http? && resp.ok && resp.data.Some? && resp.data.value.success == Some(JString("true"))
  }

  /** Reading `data.success` throws: an ok response whose body is `null`.
      The handler's catch then reports it as a network error. */
  predicate Throws(resp: Response)
  {
    resp.NetworkFailure? || (resp.ok && resp.data.None?)
  }

  /** The outcome of one send: on acceptance the selection is cleared and
      the dialog shows it was sent; otherwise the selection stays and the
      error is the service's message or a fixed fallback. */
  function HandleSend(s: SendState, resp: Response): (r: SendState)
    ensures !r.submitting
    ensures Accepted(resp) ==> r.selectedSkills == [] && r.sent && r.submitError == None
    ensures !Accepted(resp) ==> r.selectedSkills == s.selectedSkills && r.sent == s.sent
    ensures r.submitError.None? <==> Accepted(resp)
    ensures Throws(resp) ==> r.submitError == Some(NetworkFailed)
    ensures !Throws(resp) && !Accepted(resp) ==>
              r.submitError == Some(if resp.data.Some? && resp.data.value.message.Some?
                                    then resp.data.value.message.value else SubmissionFailed)
  {
    match resp
    case NetworkFailure => s.(submitting := false, submitError := Some(NetworkFailed))
    case Http(ok, data) =>
      if Throws(resp) then s.(submitting := false, submitError := Some(NetworkFailed))
      else if Accepted(resp) then s.(selectedSkills := [], sent := true, submitting := false, submitError := None)
      else
        var message := match data case Some(d) => d.message case None => None;
        s.(submitting := false, submitError := Some(message.GetOr(SubmissionFailed)))
  }

  /** A send the service accepts empties the selection just as the
      context's `clearSkills` does, so the next skills list is `null` and the
      next payload reports "none". A refused send keeps the selection, so
      the next list and payload carry the same skills as before. */
  lemma SendThenRebuild(s: SendState, resp: Response, ctx: Portfolio.PortfolioState,
                        subject: string, email: string, body: string)
    requires ctx.selectedSkills == s.selectedSkills
    ensures var r := HandleSend(s, resp);
            Accepted(resp) ==>
              && r.selectedSkills == Portfolio.ClearSkills(ctx).selectedSkills
              && SkillsList(r.selectedSkills) == None
              && BuildPayload(subject, email, body, SkillsList(r.selectedSkills)).selectedSkills == NoSkills
    ensures var r := HandleSend(s, resp);
            !Accepted(resp) ==>
              && SkillsList(r.selectedSkills) == SkillsList(s.selectedSkills)
              && (|s.selectedSkills| > 0 ==>
                    BuildPayload(subject, email, body, SkillsList(r.selectedSkills)).selectedSkills
                      == SkillsList(s.selectedSkills).value)
    ensures SkillsList(Portfolio.ClearSkills(ctx).selectedSkills) == None
  {
  }
}

=== FILE: connector.dfy ===
/** The curved arrow from a section row to its floating card: a cubic
    Bézier that leaves the row on the side facing the card and enters the
    card on the side facing the row. */
module Connector {
  import opened Wrappers
  import opened Geometry

  /** Horizontal offset of each control point from its end point. */
  const Bend: real := 120.0

  datatype Curve = Curve(start: Point, ctrl1: Point, ctrl2: Point, end: Point)

  function MidY(r: Rect): real { r.y + r.h / 2.0 }

  /** The connector for a row box and a card box; nothing when either is
      missing. */
  function Connect(row: Option<Rect>, card: Option<Rect>): (r: Option<Curve>)
    ensures r.Some? <==> row.Some? && card.Some?
    ensures r.Some? ==>
              var cardOnRight := card.value.x > row.value.x;
              && r.value.start.y == MidY(row.value)
              && r.value.end.y == MidY(card.value)
              && r.value.start.x == (if cardOnRight then row.value.x + row.value.w else row.value.x)
              && r.value.end.x == (if cardOnRight then card.value.x else card.value.x + card.value.w)
              && r.value.ctrl1 == Point(r.value.start.x + (if cardOnRight then Bend else -Bend), r.value.start.y)
              && r.value.ctrl2 == Point(r.value.end.x + (if cardOnRight then -Bend else Bend), r.value.end.y)
  {
    match (row, card)
    case (Some(rr), Some(cr)) =>
      var cardOnRight := cr.x > rr.x;
      var from := Point(if cardOnRight then rr.x + rr.w else rr.x, MidY(rr));
      var to := Point(if cardOnRight then cr.x else cr.x + cr.w, MidY(cr));
      var ctrl1 := Point(from.x + (if cardOnRight then Bend else -Bend), from.y);
      var ctrl2 := Point(to.x + (if cardOnRight then -Bend else Bend), to.y);
      Some(Curve(from, ctrl1, ctrl2, to))
    case _ => None
  }

  /** When the card lies wholly beside the row, the curve runs from the
      row's facing edge to the card's facing edge, leaving and arriving
      horizontally: the first control point is ahead of the start and the
      second behind the end, in the direction of travel. */
  lemma CurveFacesCard(row: Rect, card: Rect)
    requires row.w >= 0.0 && card.w >= 0.0
    requires card.x >= row.x + row.w || card.x + card.w <= row.x
    requires card.x != row.x
    ensures var c := Connect(Some(row), Some(card)).value;
            && (card.x >= row.x + row.w ==>
                  c.start.x == row.x + row.w && c.end.x == card.x && c.start.x <= c.end.x
                  && c.ctrl1.x > c.start.x && c.ctrl2.x < c.end.x)
            && (card.x + card.w <= row.x ==>
                  c.start.x == row.x && c.end.x == card.x + card.w && c.end.x <= c.start.x
                  && c.ctrl1.x < c.start.x && c.ctrl2.x > c.end.x)
            && c.ctrl1.y == c.start.y && c.ctrl2.y == c.end.y
  {
  }

  /** Moving the card vertically moves only the curve's card end; the row
      end is fixed. */
  lemma RowEndIgnoresCardHeight(row: Rect, card: Rect, dy: real)
    ensures var a := Connect(Some(row), Some(card)).value;
            var b := Connect(Some(row), Some(card.(y := card.y + dy))).value;
            a.start == b.start && a.ctrl1 == b.ctrl1
            && b.end == Point(a.end.x, a.end.y + dy) && b.ctrl2 == Point(a.ctrl2.x, a.ctrl2.y + dy)
  {
  }
}

=== FILE: cv_tilt.dfy ===
/** The CV panel's drag-to-rotate interaction: a press past six pixels
    becomes a drag that tilts the paper, and a damped spring returns it to
    flat when no drag drives it. */
module CvTilt {
  import opened Wrappers
  import opened Geometry
  import opened Pointer
  import opened Spring
  import opened Tilt

  const DragThreshold: real := 6.0
  /** Spring stiffness and damping of the CV panel. */
  const K: real := 0.12
  const C: real := 0.82
  /** 0.07 and 0.08 degrees per pixel of vertical and horizontal travel,
      at most 8 degrees about the horizontal axis and 10 about the vertical. */
  const PanelLimits: Limits := Limits(0.07, 0.08, 8.0, 10.0)
  /** Degrees of total tilt at which the highlight is at full strength. */
  const GlowSpan: real := 14.0

  datatype CvState = CvState(
    phase: Phase,
    pointerId: Option<int>,
    captured: bool,
    start: Snapshot,
    motion: Motion,
    holo: Holo)

  datatype Step = Step(state: CvState, effect: Effect)

  function Init(): (s: CvState)
    ensures s.phase == Idle && s.pointerId == None && !s.captured
    ensures s.motion == Rest && s.holo == Holo(0.0, 0.0, 0.0)
  {
    CvState(Idle, None, false, Snapshot(0.0, 0.0, 0.0, 0.0), Rest, Holo(0.0, 0.0, 0.0))
  }

  /** A pointer id is held exactly while a press is in progress, and capture
      is only held while dragging. */
  ghost predicate Valid(s: CvState)
  {
    && (s.phase == Idle <==> s.pointerId == None)
    && (s.captured ==> s.phase == Dragging)
  }

  /** Release capture when this session holds it; the flag is cleared either
      way the browser call goes. */
  function ReleaseCapture(s: CvState): (r: Step)
    ensures r.state == s.(captured := false) || r.state == s
    ensures s.pointerId.Some? ==> !r.state.captured
    ensures r.effect.Release? <==> s.captured && s.pointerId.Some?
    ensures r.effect.Release? ==> r.effect.id == s.pointerId.value
    ensures !r.effect.Capture?
    ensures s.pointerId.None? || !s.captured ==> r == Step(s, NoEffect)
  {
    if s.pointerId.None? || !s.captured then Step(s, NoEffect)
    else Step(s.(captured := false), Release(s.pointerId.value))
  }

  /** Releasing twice has no further effect. */
  lemma ReleaseCaptureIdempotent(s: CvState)
    ensures var once := ReleaseCapture(s);
            ReleaseCapture(once.state) == Step(once.state, NoEffect)
  {
  }

  function ResetPointerState(s: CvState): (r: CvState)
    ensures Valid(r)
    ensures r.phase == Idle && r.pointerId == None && !r.captured
    ensures r.motion == s.motion && r.start == s.start && r.holo == s.holo
  {
    s.(phase := Idle, pointerId := None, captured := false)
  }

  /** The effect run when `disabled` becomes true: release capture, then
      forget the press. */
  function Disable(s: CvState): (r: Step)
    requires Valid(s)
    ensures Valid(r.state)
    ensures r.state.phase == Idle && r.state.pointerId == None && !r.state.captured
    ensures r.effect == (if s.captured then Release(s.pointerId.value) else NoEffect)
    ensures r.state.motion == s.motion
    ensures r.state.start == s.start && r.state.holo == s.holo
  {
    var rel := ReleaseCapture(s);
    Step(ResetPointerState(rel.state), rel.effect)
  }

  function PointerDown(s: CvState, disabled: bool, e: PointerEvent): (r: CvState)
    requires Valid(s)
    ensures Valid(r)
    ensures disabled || !IsPrimary(e) || e.interactive ==> r == s
    ensures !disabled && IsPrimary(e) && !e.interactive ==>
              && r.phase == Pending && r.pointerId == Some(e.pointerId) && !r.captured
              && r.start == Snapshot(e.clientX, e.clientY, s.motion.rot.rx, s.motion.rot.ry)
              && r.motion == s.motion
    ensures r.holo == s.holo
  {
    if disabled || !IsPrimary(e) || e.interactive then s
    else s.(phase := Pending, pointerId := Some(e.pointerId), captured := false,
            start := Snapshot(e.clientX, e.clientY, s.motion.rot.rx, s.motion.rot.ry))
  }

  predicate Live(s: CvState, disabled: bool, e: PointerEvent)
  {
    !disabled && s.phase != Idle && s.pointerId == Some(e.pointerId)
  }

  /** A move: ignored when disabled, for another pointer or with no press;
      a pending press below the threshold stays pending; crossing it starts
      the drag and requests capture (a refused capture leaves `captured`
      false and the drag going); a dragging move sets the clamped rotation
      and updates the highlight. */
  function PointerMove(s: CvState, disabled: bool, e: PointerEvent, captureOk: bool,
                       frame: Point): (r: Step)
    requires Valid(s)
    ensures Valid(r.state)
    ensures !Live(s, disabled, e) ==> r == Step(s, NoEffect)
    ensures Live(s, disabled, e) && s.phase == Pending &&
            BelowThreshold(e.clientX - s.start.x, e.clientY - s.start.y, DragThreshold) ==>
              r == Step(s, NoEffect)
    ensures Live(s, disabled, e) && s.phase == Pending &&
            !BelowThreshold(e.clientX - s.start.x, e.clientY - s.start.y, DragThreshold) ==>
              r.state.phase == Dragging && r.state.captured == captureOk
              && r.effect == Capture(e.pointerId)
    ensures s.phase == Dragging ==>
              r.effect == NoEffect && r.state.phase == Dragging && r.state.captured == s.captured
    ensures Live(s, disabled, e) && r.state.phase == Dragging ==>
              && r.state.motion.rot == DragRotation(PanelLimits, s.start, e.clientX - s.start.x, e.clientY - s.start.y)
              && r.state.motion.vel == s.motion.vel
              && r.state.holo == HoloAt(e.clientX, e.clientY, frame, r.state.motion.rot, GlowSpan)
    ensures Live(s, disabled, e) && r.state.phase == Dragging ==>
              -8.0 <= r.state.motion.rot.rx <= 8.0 && -10.0 <= r.state.motion.rot.ry <= 10.0
    ensures r.state.phase != Dragging ==> r.state.motion == s.motion
    ensures r.state.pointerId == s.pointerId && r.state.start == s.start
  {
    if !Live(s, disabled, e) then Step(s, NoEffect)
    else
      var dx := e.clientX - s.start.x;
      var dy := e.clientY - s.start.y;
      if s.phase == Pending && BelowThreshold(dx, dy, DragThreshold) then Step(s, NoEffect)
      else
        var started := if s.phase == Pending
                       then Step(s.(phase := Dragging, captured := captureOk), Capture(e.pointerId))
                       else Step(s, NoEffect);
        var rot := DragRotation(PanelLimits, s.start, dx, dy);
        var holo := HoloAt(e.clientX, e.clientY, frame, rot, GlowSpan);
        Step(started.state.(motion := s.motion.(rot := rot), holo := holo), started.effect)
  }

  /** `pointerup` and `pointercancel`: the pressed pointer ends the press and
      releases capture if held; any other pointer is ignored. The handlers are
      unbound while disabled. */
  function EndPointer(s: CvState, disabled: bool, e: PointerEvent): (r: Step)
    requires Valid(s)
    ensures Valid(r.state)
    ensures disabled || s.pointerId != Some(e.pointerId) ==> r == Step(s, NoEffect)
    ensures !disabled && s.pointerId == Some(e.pointerId) ==>
              && r.state.phase == Idle && r.state.pointerId == None && !r.state.captured
              && r.effect == (if s.captured then Release(e.pointerId) else NoEffect)
    ensures r.state.motion == s.motion
    ensures r.state.start == s.start && r.state.holo == s.holo
  {
    if disabled || s.pointerId != Some(e.pointerId) then Step(s, NoEffect)
    else
      var rel := ReleaseCapture(s);
      Step(ResetPointerState(rel.state), rel.effect)
  }

  /** One animation frame: frozen while dragging or disabled, otherwise one
      spring step toward flat. */
  function Tick(s: CvState, disabled: bool): (r: CvState)
    ensures s.phase == Dragging || disabled ==> r == s
    ensures s.phase != Dragging && !disabled ==> r == s.(motion := Advance(s.motion, K, C))
    ensures s.phase != Dragging && !disabled ==> r.motion == Rest || !NearRest(r.motion)
    ensures s.motion == Rest ==> r.motion == Rest
  {
    if s.phase == Dragging || disabled then s
    else s.(motion := Advance(s.motion, K, C))
  }

  /** Released from a still tilt, the first frame moves the paper strictly
      toward flat without overshooting. */
  lemma TickPullsTowardFlat(s: CvState)
    requires s.phase != Dragging
    requires s.motion.vel == Vel(0.0, 0.0)
    ensures var r := Tick(s, false).motion.rot;
            (r.rx == 0.0 || (r.rx > 0.0 <==> s.motion.rot.rx > 0.0))
            && (r.ry == 0.0 || (r.ry > 0.0 <==> s.motion.rot.ry > 0.0))
            && (s.motion.rot.rx != 0.0 ==> Abs(r.rx) < Abs(s.motion.rot.rx))
            && (s.motion.rot.ry != 0.0 ==> Abs(r.ry) < Abs(s.motion.rot.ry))
  {
    var n := Integrate(s.motion, K, C);
    assert n.rot.rx == 0.9016 * s.motion.rot.rx;
    assert n.rot.ry == 0.9016 * s.motion.rot.ry;
    assert Advance(s.motion, K, C) == Rest || Advance(s.motion, K, C) == n;
  }

  /** Feed a sequence of moves to the panel, counting capture requests. */
  function RunMoves(s: CvState, disabled: bool, es: seq<PointerEvent>, captureOk: bool,
                    frame: Point): (r: (CvState, nat))
    requires Valid(s)
    ensures Valid(r.0)
    ensures r.0.pointerId == s.pointerId && r.0.start == s.start
    decreases |es|
  {
    if |es| == 0 then (s, 0)
    else
      var st := PointerMove(s, disabled, es[0], captureOk, frame);
      var rest := RunMoves(st.state, disabled, es[1..], captureOk, frame);
      (rest.0, rest.1 + if st.effect.Capture? then 1 else 0)
  }

  /** A press whose pointer stays within six pixels of where it went down is
      still a click: nothing changes and capture is never requested. */
  lemma {:induction false} SmallMovesKeepClick(s: CvState, disabled: bool, es: seq<PointerEvent>,
                                               captureOk: bool, frame: Point)
    requires Valid(s) && s.phase == Pending
    requires forall i :: 0 <= i < |es| && Some(es[i].pointerId) == s.pointerId ==>
               BelowThreshold(es[i].clientX - s.start.x, es[i].clientY - s.start.y, DragThreshold)
    ensures RunMoves(s, disabled, es, captureOk, frame) == (s, 0)
    decreases |es|
  {
    if |es| > 0 {
      SmallMovesKeepClick(s, disabled, es[1..], captureOk, frame);
    }
  }

  /** Over any sequence of moves a press turns into a drag at most once,
      capture is requested exactly when it does, and moves never end the
      press. */
  lemma {:induction false} DragStartsOnce(s: CvState, disabled: bool, es: seq<PointerEvent>,
                                          captureOk: bool, frame: Point)
    requires Valid(s)
    ensures var r := RunMoves(s, disabled, es, captureOk, frame);
            && (s.phase == Idle ==> r == (s, 0))
            && (s.phase == Dragging ==> r.0.phase == Dragging && r.1 == 0)
            && (s.phase == Pending ==> r.1 <= 1 && (r.1 == 1 <==> r.0.phase == Dragging)
                                               && r.0.phase != Idle)
    decreases |es|
  {
    if |es| > 0 {
      var st := PointerMove(s, disabled, es[0], captureOk, frame);
      DragStartsOnce(st.state, disabled, es[1..], captureOk, frame);
    }
  }

  /** Conversely, once the pressed pointer has been six pixels or more from
      the press point on some move while enabled, the press has become a
      drag and capture was requested exactly once. */
  lemma {:induction false} CrossingDrags(s: CvState, es: seq<PointerEvent>, captureOk: bool,
                                         frame: Point, i: nat)
    requires Valid(s) && s.phase == Pending
    requires i < |es| && Some(es[i].pointerId) == s.pointerId
    requires !BelowThreshold(es[i].clientX - s.start.x, es[i].clientY - s.start.y, DragThreshold)
    ensures var r := RunMoves(s, false, es, captureOk, frame);
            r.0.phase == Dragging && r.1 == 1
    decreases |es|
  {
    var st := PointerMove(s, false, es[0], captureOk, frame);
    DragStartsOnce(st.state, false, es[1..], captureOk, frame);
    if st.state.phase != Dragging {
      assert i > 0;
      CrossingDrags(st.state, es[1..], captureOk, frame, i - 1);
    }
  }

  /** Once disabling has dropped the press, no move sequence has any effect,
      whether the panel is still disabled or not, until a new press. */
  lemma {:induction false} DisabledStaysInert(s: CvState, disabledNow: bool, es: seq<PointerEvent>,
                                              captureOk: bool, frame: Point)
    requires Valid(s)
    ensures var d := Disable(s).state;
            RunMoves(d, disabledNow, es, captureOk, frame) == (d, 0)
    decreases |es|
  {
    if |es| > 0 {
      var d := Disable(s).state;
      assert PointerMove(d, disabledNow, es[0], captureOk, frame) == Step(d, NoEffect);
      assert Disable(d).state == d;
      DisabledStaysInert(d, disabledNow, es[1..], captureOk, frame);
    }
  }

  /** Press at (100, 100), move ten pixels right: the press becomes a drag,
      capture is requested, and the paper turns 0.8 degrees. */
  lemma TenPixelDragScenario()
    ensures var s1 := PointerDown(Init(), false, PointerEvent(1, Some(0), 100.0, 100.0, false));
            var r := PointerMove(s1, false, PointerEvent(1, Some(0), 110.0, 100.0, false), true, Point(0.0, 0.0));
            && r.state.phase == Dragging && r.effect == Capture(1)
            && r.state.motion.rot == Rot(0.0, 0.8)
  {
  }

  /** Press at (100, 100), move to (103, 101): still a click. */
  lemma SmallMoveScenario()
    ensures var s1 := PointerDown(Init(), false, PointerEvent(1, Some(0), 100.0, 100.0, false));
            PointerMove(s1, false, PointerEvent(1, Some(0), 103.0, 101.0, false), true, Point(0.0, 0.0))
              == Step(s1, NoEffect)
  {
  }
}

=== FILE: draggable.dfy ===
/** The floating-card drag hook (`useDraggable`): a press becomes a drag once
    the pointer has moved `dragThreshold` pixels, and while dragging the card
    position follows the pointer, clamped to the viewport. */
module Draggable {
  import opened Wrappers
  import opened Geometry
  import opened Pointer

  /** Margin kept between a clamped card and the viewport edges. */
  const Pad: real := 12.0
  /** The hook's default drag threshold, in pixels. */
  const DefaultThreshold: real := 5.0

  /** The card's top-left corner. */
  type Pos = Point
  datatype Size = Size(w: real, h: real)

  /** The hook's options that stay fixed for a card. */
  datatype Config = Config(clampToViewport: bool, size: Size, dragThreshold: real)

  /** The defaults `clampToViewport = true`, 420 x 340, threshold 5. */
  const DefaultConfig := Config(true, Size(420.0, 340.0), DefaultThreshold)

  /** The hook's mutable session record together with its position.
      `ox`/`oy` is the pointer's offset from the card corner at press time. */
  datatype DragState = DragState(
    phase: Phase,
    pointerId: Option<int>,
    startX: real,
    startY: real,
    ox: real,
    oy: real,
    captured: bool,
    pos: Pos)

  /** What a handler leaves behind: the new state and the capture call made. */
  datatype Step = Step(state: DragState, effect: Effect)

  function Init(initial: Pos): (s: DragState)
    ensures s.phase == Idle && s.pointerId == None && !s.captured
    ensures s.pos == initial
  {
    DragState(Idle, None, 0.0, 0.0, 0.0, 0.0, false, initial)
  }

  /** The invariant every handler keeps: a pointer id is held exactly while a
      press is in progress, and capture is only ever held during a press.
      Unlike the tilt panels, this hook does not clear `captured` on a new
      press, so `captured` may be true while Pending. */
  ghost predicate Valid(s: DragState)
  {
    && (s.phase == Idle <==> s.pointerId == None)
    && (s.captured ==> s.phase != Idle)
  }

  /** Keep a card at least `Pad` pixels inside the viewport; the identity
      when `clampToViewport` is off. */
  function Clamp(cfg: Config, view: Viewport, x: real, y: real): (r: Pos)
    ensures !cfg.clampToViewport ==> r == Point(x, y)
    ensures cfg.clampToViewport ==> r.x >= Pad && r.y >= Pad
    ensures cfg.clampToViewport && view.width as real - cfg.size.w - 2.0 * Pad >= 0.0 ==>
              r.x <= view.width as real - cfg.size.w - Pad
    ensures cfg.clampToViewport && view.height as real - cfg.size.h - 2.0 * Pad >= 0.0 ==>
              r.y <= view.height as real - cfg.size.h - Pad
    ensures cfg.clampToViewport && Pad <= x <= view.width as real - cfg.size.w - Pad ==> r.x == x
    ensures cfg.clampToViewport && Pad <= y <= view.height as real - cfg.size.h - Pad ==> r.y == y
    ensures cfg.clampToViewport && (x < Pad || view.width as real - cfg.size.w - Pad < Pad) ==> r.x == Pad
    ensures cfg.clampToViewport && Pad <= view.width as real - cfg.size.w - Pad < x ==>
              r.x == view.width as real - cfg.size.w - Pad
    ensures cfg.clampToViewport && (y < Pad || view.height as real - cfg.size.h - Pad < Pad) ==> r.y == Pad
    ensures cfg.clampToViewport && Pad <= view.height as real - cfg.size.h - Pad < y ==>
              r.y == view.height as real - cfg.size.h - Pad
  {
    if !cfg.clampToViewport then Point(x, y)
    else Point(Geometry.Clamp(x, Pad, view.width as real - cfg.size.w - Pad),
               Geometry.Clamp(y, Pad, view.height as real - cfg.size.h - Pad))
  }

  /** Clamping a clamped position changes nothing. */
  lemma ClampIdempotent(cfg: Config, view: Viewport, x: real, y: real)
    ensures var p := Clamp(cfg, view, x, y);
            Clamp(cfg, view, p.x, p.y) == p
  {
  }
  /** Release capture if this session holds it; a no-op otherwise. The flag is
      cleared whether or not the browser call succeeds. */
  function ReleaseCapture(s: DragState): (r: Step)
    ensures s.pointerId.Some? ==> !r.state.captured
    ensures r.state == s.(captured := false) || r.state == s
    ensures r.effect.Release? <==> s.captured && s.pointerId.Some?
    ensures r.effect.Release? ==> r.effect.id == s.pointerId.value
    ensures !r.effect.Capture?
    ensures !s.captured ==> r == Step(s, NoEffect)
    ensures s.pointerId.None? ==> r == Step(s, NoEffect)
  {
    if !s.captured || s.pointerId.None? then Step(s, NoEffect)
    else Step(s.(captured := false), Release(s.pointerId.value))
  }

  /** Releasing twice has no further effect. */
  lemma ReleaseCaptureIdempotent(s: DragState)
    requires Valid(s)
    ensures var once := ReleaseCapture(s);
            ReleaseCapture(once.state) == Step(once.state, NoEffect)
  {
  }

  /** End the session: release capture if held and forget the pointer. */
  function Reset(s: DragState): (r: Step)
    requires Valid(s)
    ensures Valid(r.state)
    ensures r.state.phase == Idle && r.state.pointerId == None && !r.state.captured
    ensures r.state.pos == s.pos
    ensures r.effect == (if s.captured then Release(s.pointerId.value) else NoEffect)
  {
    var rel := ReleaseCapture(s);
    Step(rel.state.(phase := Idle, pointerId := None), rel.effect)
  }

  function PointerDown(s: DragState, disabled: bool, e: PointerEvent): (r: DragState)
    requires Valid(s)
    ensures Valid(r)
    ensures disabled || !IsPrimary(e) || e.interactive ==> r == s
    ensures !disabled && IsPrimary(e) && !e.interactive ==>
              && r.phase == Pending && r.pointerId == Some(e.pointerId)
              && r.startX == e.clientX && r.startY == e.clientY
              && r.ox == e.clientX - s.pos.x && r.oy == e.clientY - s.pos.y
              && r.pos == s.pos && r.captured == s.captured
  {
    if disabled || !IsPrimary(e) || e.interactive then s
    else s.(phase := Pending, pointerId := Some(e.pointerId),
            startX := e.clientX, startY := e.clientY,
            ox := e.clientX - s.pos.x, oy := e.clientY - s.pos.y)
  }

  /** A move event that the handler acts on: the hook is enabled, a press is
      in progress and the event comes from the pressed pointer. */
  predicate Live(s: DragState, disabled: bool, e: PointerEvent)
  {
    !disabled && s.phase != Idle && s.pointerId == Some(e.pointerId)
  }

  /** A move: ignored unless it belongs to the live session; below the
      threshold a pending press stays pending; the first move past it starts
      the drag and requests capture (whose failure does not stop the drag);
      a dragging move sets the clamped position. */
  function PointerMove(s: DragState, cfg: Config, view: Viewport, disabled: bool,
                       e: PointerEvent, captureOk: bool): (r: Step)
    requires Valid(s)
    ensures Valid(r.state)
    ensures !Live(s, disabled, e) ==> r == Step(s, NoEffect)
    ensures Live(s, disabled, e) && s.phase == Pending &&
            BelowThreshold(e.clientX - s.startX, e.clientY - s.startY, cfg.dragThreshold) ==>
              r == Step(s, NoEffect)
    ensures Live(s, disabled, e) && s.phase == Pending &&
            !BelowThreshold(e.clientX - s.startX, e.clientY - s.startY, cfg.dragThreshold) ==>
              r.state.phase == Dragging && r.state.captured == captureOk
              && r.effect == Capture(e.pointerId)
    ensures s.phase == Dragging ==>
              r.effect == NoEffect && r.state.phase == Dragging && r.state.captured == s.captured
    ensures r.state.phase == Dragging && Live(s, disabled, e) ==>
              r.state.pos == Clamp(cfg, view, e.clientX - s.ox, e.clientY - s.oy)
    ensures r.state.phase != Dragging ==> r.state.pos == s.pos
    ensures r.state.pointerId == s.pointerId
    ensures r.state.startX == s.startX && r.state.startY == s.startY
    ensures r.state.ox == s.ox && r.state.oy == s.oy
  {
    if !Live(s, disabled, e) then Step(s, NoEffect)
    else
      var dx := e.clientX - s.startX;
      var dy := e.clientY - s.startY;
      if s.phase == Pending && BelowThreshold(dx, dy, cfg.dragThreshold) then Step(s, NoEffect)
      else
        var started := if s.phase == Pending
                       then Step(s.(phase := Dragging, captured := captureOk), Capture(e.pointerId))
                       else Step(s, NoEffect);
        var pos := Clamp(cfg, view, e.clientX - s.ox, e.clientY - s.oy);
        Step(started.state.(pos := pos), started.effect)
  }

  /** After an accepted press, a drag places the card at the press-time
      position moved by the pointer's displacement since the press, clamped. */
  lemma DragFollowsPointer(s: DragState, cfg: Config, view: Viewport,
                           down: PointerEvent, move: PointerEvent, captureOk: bool)
    requires Valid(s)
    requires IsPrimary(down) && !down.interactive
    requires move.pointerId == down.pointerId
    requires !BelowThreshold(move.clientX - down.clientX, move.clientY - down.clientY, cfg.dragThreshold)
    ensures var r := PointerMove(PointerDown(s, false, down), cfg, view, false, move, captureOk);
            && r.state.phase == Dragging
            && r.state.pos == Clamp(cfg, view, s.pos.x + (move.clientX - down.clientX),
                                               s.pos.y + (move.clientY - down.clientY))
  {
  }

  /** Feed a sequence of move events to the hook, counting the capture
      requests it makes. */
  function RunMoves(s: DragState, cfg: Config, view: Viewport, disabled: bool,
                    es: seq<PointerEvent>, captureOk: bool): (r: (DragState, nat))
    requires Valid(s)
    ensures Valid(r.0)
    ensures r.0.pointerId == s.pointerId
    decreases |es|
  {
    if |es| == 0 then (s, 0)
    else
      var st := PointerMove(s, cfg, view, disabled, es[0], captureOk);
      var rest := RunMoves(st.state, cfg, view, disabled, es[1..], captureOk);
      (rest.0, rest.1 + if st.effect.Capture? then 1 else 0)
  }

  /** A press whose pointer never strays `dragThreshold` pixels from where it
      went down stays a click: the state, and so the card position, is left
      exactly as it was and capture is never requested. */
  lemma {:induction false} SmallMovesKeepClick(s: DragState, cfg: Config, view: Viewport, disabled: bool,
                                               es: seq<PointerEvent>, captureOk: bool)
    requires Valid(s) && s.phase == Pending
    requires forall i :: 0 <= i < |es| && Some(es[i].pointerId) == s.pointerId ==>
               BelowThreshold(es[i].clientX - s.startX, es[i].clientY - s.startY, cfg.dragThreshold)
    ensures RunMoves(s, cfg, view, disabled, es, captureOk) == (s, 0)
    decreases |es|
  {
    if |es| > 0 {
      SmallMovesKeepClick(s, cfg, view, disabled, es[1..], captureOk);
    }
  }

  /** Over any sequence of moves a press turns into a drag at most once:
      capture is requested exactly once if the press ends up dragging from a
      pending start, and moves never end the press. */
  lemma {:induction false} DragStartsOnce(s: DragState, cfg: Config, view: Viewport, disabled: bool,
                                          es: seq<PointerEvent>, captureOk: bool)
    requires Valid(s)
    ensures var r := RunMoves(s, cfg, view, disabled, es, captureOk);
            && (s.phase == Idle ==> r == (s, 0))
            && (s.phase == Dragging ==> r.0.phase == Dragging && r.1 == 0)
            && (s.phase == Pending ==> r.1 <= 1 && (r.1 == 1 <==> r.0.phase == Dragging)
                                               && r.0.phase != Idle)
    decreases |es|
  {
    if |es| > 0 {
      var st := PointerMove(s, cfg, view, disabled, es[0], captureOk);
      DragStartsOnce(st.state, cfg, view, disabled, es[1..], captureOk);
    }
  }

  /** Conversely, once the pressed pointer has been `dragThreshold` pixels
      or more from the press point on some move, the press has become a
      drag and capture was requested exactly once. */
  lemma {:induction false} CrossingDrags(s: DragState, cfg: Config, view: Viewport,
                                         es: seq<PointerEvent>, captureOk: bool, i: nat)
    requires Valid(s) && s.phase == Pending
    requires i < |es| && Some(es[i].pointerId) == s.pointerId
    requires !BelowThreshold(es[i].clientX - s.startX, es[i].clientY - s.startY, cfg.dragThreshold)
    ensures var r := RunMoves(s, cfg, view, false, es, captureOk);
            r.0.phase == Dragging && r.1 == 1
    decreases |es|
  {
    var st := PointerMove(s, cfg, view, false, es[0], captureOk);
    DragStartsOnce(st.state, cfg, view, false, es[1..], captureOk);
    if st.state.phase != Dragging {
      assert i > 0;
      CrossingDrags(st.state, cfg, view, es[1..], captureOk, i - 1);
    }
  }

  /** `pointerup` and `pointercancel` share this handler: a matching pointer
      ends the session, any other is ignored. While disabled the hook binds
      no handlers, so the event never arrives. */
  function PointerEnd(s: DragState, disabled: bool, e: PointerEvent): (r: Step)
    requires Valid(s)
    ensures Valid(r.state)
    ensures disabled || s.pointerId != Some(e.pointerId) ==> r == Step(s, NoEffect)
    ensures !disabled && s.pointerId == Some(e.pointerId) ==>
              && r.state.phase == Idle && r.state.pointerId == None && !r.state.captured
              && (s.captured ==> r.effect == Release(e.pointerId))
              && (!s.captured ==> r.effect == NoEffect)
    ensures r.state.pos == s.pos
  {
    if disabled || s.pointerId != Some(e.pointerId) then Step(s, NoEffect)
    else Reset(s)
  }

  /** Unlike the tilt panels, a second press during a drag keeps the
      `captured` flag of the first, so capture can be flagged while pending. */
  lemma CapturedWhilePending()
    ensures var cfg := DefaultConfig;
            var view := Viewport(1280, 800);
            var s0 := Init(Point(100.0, 100.0));
            var s1 := PointerDown(s0, false, PointerEvent(1, Some(0), 200.0, 200.0, false));
            var s2 := PointerMove(s1, cfg, view, false, PointerEvent(1, Some(0), 220.0, 200.0, false), true).state;
            var s3 := PointerDown(s2, false, PointerEvent(2, Some(0), 300.0, 300.0, false));
            s3.phase == Pending && s3.captured && s3.pointerId == Some(2)
  {
  }

  /** The effect that runs when `disabled` becomes true: the session is
      dropped without calling the browser's release. */
  function Disable(s: DragState): (r: DragState)
    ensures Valid(r)
    ensures r.phase == Idle && r.pointerId == None && !r.captured
    ensures r.pos == s.pos && r.startX == s.startX && r.startY == s.startY
    ensures r.ox == s.ox && r.oy == s.oy
  {
    s.(phase := Idle, pointerId := None, captured := false)
  }
}

=== FILE: geometry.dfy ===
/** Screen geometry shared by the components: the viewport, points and
    boxes in CSS pixels, and the `Math.min`/`Math.max` clamp they all use.
    JavaScript numbers are modelled as exact reals. */
module Geometry {

  /** `window.innerWidth` and `window.innerHeight`, which are whole pixels. */
  datatype Viewport = Viewport(width: int, height: int)

  datatype Point = Point(x: real, y: real)

  /** A box with its left edge at `x`, top edge at `y` and size `w` x `h`. */
  datatype Rect = Rect(x: real, y: real, w: real, h: real)

  function Min(a: real, b: real): (r: real)
    ensures r <= a && r <= b && (r == a || r == b)
  {
    if a < b then a else b
  }

  function Max(a: real, b: real): (r: real)
    ensures r >= a && r >= b && (r == a || r == b)
  {
    if a > b then a else b
  }

  /** `Math.max(lo, Math.min(v, hi))`: never below `lo`, never above `hi`
      when the range is non-empty, and the identity inside the range. */
  function Clamp(v: real, lo: real, hi: real): (r: real)
    ensures r >= lo
    ensures lo <= hi ==> r <= hi
    ensures lo <= v <= hi ==> r == v
    ensures v < lo ==> r == lo
    ensures lo <= hi < v ==> r == hi
    ensures hi < lo ==> r == lo
  {
    Max(lo, Min(v, hi))
  }

  /** A clamped value is a fixed point of the same clamp. */
  lemma ClampIdempotent(v: real, lo: real, hi: real)
    ensures Clamp(Clamp(v, lo, hi), lo, hi) == Clamp(v, lo, hi)
  {
  }

  /** Clamping never reverses the order of two values. */
  lemma ClampMonotone(u: real, v: real, lo: real, hi: real)
    requires u <= v
    ensures Clamp(u, lo, hi) <= Clamp(v, lo, hi)
  {
  }

  function Abs(v: real): (r: real)
    ensures r >= 0.0
    ensures r == v || r == -v
  {
    if v < 0.0 then -v else v
  }
}

=== FILE: layout.dfy ===
/** The page layout's floating-card bookkeeping: where a newly opened
    section card is placed, and the ordered set of open cards with each
    card's current rectangle. */
module Layout {
  import opened Wrappers
  import opened Geometry
  import opened Seqs

  /** Viewports narrower than this get the stacked mobile layout. */
  const MobileBreakpoint: int := 640
  const CardMaxWidth: int := 440
  const CardHeight: int := 380
  /** Margin kept to the viewport edges on desktop. */
  const Margin: int := 12
  /** Mobile cards stack from this top offset with this gap between them. */
  const MobileTop: int := 80
  const MobileGap: int := 12
  /** Desktop cards on one side stack with this gap between them. */
  const DesktopGap: int := 18
  /** Without a row to align to, desktop cards start at this height. */
  const DefaultBaseY: real := 170.0
  /** A desktop card's top sits this far above its section row. */
  const RowLift: real := 40.0
  /** Horizontal distance of the card columns from the viewport centre. */
  const CenterOffset: real := 330.0

  type Key = string

  function MinInt(a: int, b: int): int { if a < b then a else b }

  predicate IsMobile(view: Viewport) { view.width < MobileBreakpoint }

  /** Where the first desktop card of a section starts: 40 px above the
      section row when the row element exists, 170 px from the top
      otherwise. */
  function BaseY(rowTop: Option<real>): (y: real)
    ensures rowTop.Some? ==> y + RowLift == rowTop.value
    ensures rowTop.None? ==> y == DefaultBaseY
  {
    match rowTop
    case Some(top) => top - RowLift
    case None => DefaultBaseY
  }

  /** Initial rectangle for the card opened in slot `index`. `rowTop` is the
      top of the clicked section's row, when that row element exists.
      Mobile: cards are centred and stacked downward. Desktop: even slots go
      right of the CV and odd slots left, each side stacking downward from
      the row, kept inside the viewport margins. */
  function PlaceCard(view: Viewport, rowTop: Option<real>, index: nat): (r: Rect)
    ensures r.h == CardHeight as real
    ensures r.w == MinInt(CardMaxWidth, view.width - 2 * Margin) as real
    ensures IsMobile(view) ==> r.x == r.x.Floor as real
    ensures IsMobile(view) ==>
              && r.x >= 0.0
              && (2.0 * r.x + r.w == view.width as real || 2.0 * r.x + r.w == view.width as real - 1.0)
    ensures !IsMobile(view) ==>
              && r.w == CardMaxWidth as real
              && Margin as real <= r.x <= view.width as real - r.w - Margin as real
              && r.y >= Margin as real
              && (view.height - CardHeight - 2 * Margin >= 0 ==>
                    r.y + r.h <= view.height as real - Margin as real)
    ensures !IsMobile(view) ==>
              var stackedY := BaseY(rowTop) + ((index / 2) * (CardHeight + DesktopGap)) as real;
              && (Margin as real <= stackedY <= (view.height - CardHeight - Margin) as real ==>
                    r.y == stackedY)
              && (stackedY < Margin as real ==> r.y == Margin as real)
              && (Margin as real <= (view.height - CardHeight - Margin) as real < stackedY ==>
                    r.y == (view.height - CardHeight - Margin) as real)
    ensures !IsMobile(view) && view.height - CardHeight - 2 * Margin < 0 ==> r.y == Margin as real
    ensures !IsMobile(view) && index % 2 == 0 ==>
              && r.x <= view.width as real / 2.0 + CenterOffset
              && (r.x == view.width as real / 2.0 + CenterOffset
                  || r.x + r.w == view.width as real - Margin as real)
    ensures !IsMobile(view) && index % 2 == 1 ==>
              && r.x + r.w >= view.width as real / 2.0 - CenterOffset
              && (r.x + r.w == view.width as real / 2.0 - CenterOffset || r.x == Margin as real)
  {
    var w := MinInt(CardMaxWidth, view.width - 2 * Margin);
    var h := CardHeight;
    if IsMobile(view) then
      var x := if (view.width - w) / 2 > 0 then (view.width - w) / 2 else 0;
      var stacked := MobileTop + index * (h + MobileGap);
      var y := if stacked > MobileTop then stacked else MobileTop;
      Rect(x as real, y as real, w as real, h as real)
    else
      var stackSlot := index / 2;
      var stackedY := BaseY(rowTop) + (stackSlot * (h + DesktopGap)) as real;
      var y := Clamp(stackedY, Margin as real, (view.height - h - Margin) as real);
      var cvCenterX := view.width as real / 2.0;
      var xRight := Min((view.width - w - Margin) as real, cvCenterX + CenterOffset);
      var xLeft := Max(Margin as real, cvCenterX - CenterOffset - w as real);
      Rect(if index % 2 == 0 then xRight else xLeft, y, w as real, h as real)
  }

  /** On mobile the first card sits at the top offset and each next slot
      sits one card height plus the gap below the previous one. */
  lemma MobileStacking(view: Viewport, rowTop: Option<real>, index: nat)
    requires IsMobile(view)
    ensures PlaceCard(view, rowTop, 0).y == MobileTop as real
    ensures PlaceCard(view, rowTop, index + 1).y
              == PlaceCard(view, rowTop, index).y + (CardHeight + MobileGap) as real
    ensures PlaceCard(view, rowTop, index + 1).x == PlaceCard(view, rowTop, index).x
  {
  }

  /** On desktop the next card on the same side shares its column and sits
      lower by one card height plus the gap, unless the viewport clamp
      holds it back; it is never placed higher. */
  lemma DesktopStacking(view: Viewport, rowTop: Option<real>, index: nat)
    requires !IsMobile(view)
    ensures var a := PlaceCard(view, rowTop, index);
            var b := PlaceCard(view, rowTop, index + 2);
            && b.x == a.x
            && b.y >= a.y
            && (b.y + b.h < (view.height - Margin) as real && a.y > Margin as real ==>
                  b.y == a.y + (CardHeight + DesktopGap) as real)
  {
    var slot := index / 2;
    assert (index + 2) / 2 == slot + 1;
    assert (index + 2) % 2 == index % 2;
    assert (slot + 1) * (CardHeight + DesktopGap) == slot * (CardHeight + DesktopGap) + (CardHeight + DesktopGap);
  }

  /** The layout's state: open section keys in opening order, each open
      card's rectangle, the certificate being viewed and whether the
      checkout dialog is open. */
  datatype LayoutState = LayoutState(
    openKeys: seq<Key>,
    cardRects: map<Key, Rect>,
    activeCert: Option<string>,
    checkoutOpen: bool)

  const Empty := LayoutState([], map[], None, false)

  /** Each open key appears once and has exactly one rectangle. */
  ghost predicate Valid(s: LayoutState)
  {
    && NoDup(s.openKeys)
    && (forall k :: k in s.cardRects ==> k in s.openKeys)
    && (forall k :: k in s.openKeys ==> k in s.cardRects)
  }

  /** A dialog covers the page: a certificate is shown or checkout is open. */
  function ModalOpen(s: LayoutState): (b: bool)
    ensures s.activeCert.Some? ==> b
    ensures s.checkoutOpen ==> b
    ensures !b ==> s.activeCert == None && !s.checkoutOpen
  {
    s.activeCert.Some? || s.checkoutOpen
  }

  /** Clicking a section row opens its card: nothing happens under a dialog
      or when the card is already open; otherwise the key is appended and its
      card placed in the slot given by its position in the open list. */
  function OnSectionClick(s: LayoutState, key: Key, view: Viewport, rowTop: Option<real>): (r: LayoutState)
    requires Valid(s)
    ensures Valid(r)
    ensures ModalOpen(s) || key in s.openKeys ==> r == s
    ensures !ModalOpen(s) ==> key in r.openKeys
    ensures !ModalOpen(s) && key !in s.openKeys ==>
              && |r.openKeys| == |s.openKeys| + 1
              && r.openKeys[..|s.openKeys|] == s.openKeys
              && r.openKeys[|s.openKeys|] == key
              && r.cardRects[key] == PlaceCard(view, rowTop, |r.openKeys| - 1)
    ensures forall k :: k != key ==> (k in r.cardRects <==> k in s.cardRects)
    ensures forall k :: k != key && k in s.cardRects ==> r.cardRects[k] == s.cardRects[k]
    ensures r.activeCert == s.activeCert && r.checkoutOpen == s.checkoutOpen
  {
    if ModalOpen(s) || key in s.openKeys then s
    else
      var next := s.openKeys + [key];
      AppendPreservesNoDup(s.openKeys, key);
      s.(openKeys := next, cardRects := s.cardRects[key := PlaceCard(view, rowTop, |next| - 1)])
  }

  /** Closing a card removes its key and rectangle and touches nothing else. */
  function CloseSectionCard(s: LayoutState, key: Key): (r: LayoutState)
    requires Valid(s)
    ensures Valid(r)
    ensures key !in r.openKeys && key !in r.cardRects
    ensures forall i :: 0 <= i < |s.openKeys| && s.openKeys[i] != key ==> s.openKeys[i] in r.openKeys
    ensures forall k :: k != key ==> (k in r.cardRects <==> k in s.cardRects)
    ensures forall k :: k != key && k in s.cardRects ==> r.cardRects[k] == s.cardRects[k]
    ensures r.activeCert == s.activeCert && r.checkoutOpen == s.checkoutOpen
  {
    RemovePreservesNoDup(s.openKeys, key);
    s.(openKeys := RemoveAll(s.openKeys, key), cardRects := s.cardRects - {key})
  }

  /** The other open cards keep their order: closing the card at position
      `i` closes the gap. */
  lemma CloseKeepsOrder(s: LayoutState, i: nat)
    requires Valid(s) && i < |s.openKeys|
    ensures CloseSectionCard(s, s.openKeys[i]).openKeys == s.openKeys[..i] + s.openKeys[i + 1..]
  {
    RemoveAt(s.openKeys, i);
  }

  /** Opening a card and closing it again restores the layout exactly. */
  lemma OpenThenCloseRestores(s: LayoutState, key: Key, view: Viewport, rowTop: Option<real>)
    requires Valid(s) && key !in s.openKeys
    ensures CloseSectionCard(OnSectionClick(s, key, view, rowTop), key) == s
  {
    if !ModalOpen(s) {
      var rect := PlaceCard(view, rowTop, |s.openKeys|);
      var after := OnSectionClick(s, key, view, rowTop);
      assert after.openKeys == s.openKeys + [key];
      assert after.cardRects == s.cardRects[key := rect];
      RemoveConcat(s.openKeys, [key], key);
      RemoveAbsent(s.openKeys, key);
      assert RemoveAll([key], key) == [];
      assert key !in s.cardRects;
      MapAddRemove(s.cardRects, key, rect);
    } else {
      RemoveAbsent(s.openKeys, key);
      assert s.cardRects - {key} == s.cardRects;
    }
  }

  lemma MapAddRemove(m: map<Key, Rect>, key: Key, rect: Rect)
    requires key !in m
    ensures m[key := rect] - {key} == m
  {
  }

  function CloseAllCards(s: LayoutState): (r: LayoutState)
    ensures Valid(r)
    ensures r.openKeys == [] && r.cardRects == map[]
    ensures r.activeCert == s.activeCert && r.checkoutOpen == s.checkoutOpen
  {
    s.(openKeys := [], cardRects := map[])
  }

  /** Flipping the CV closes every card and both dialogs. */
  function OnFlip(s: LayoutState): (r: LayoutState)
    ensures Valid(r)
    ensures r.openKeys == [] && r.cardRects == map[]
    ensures !ModalOpen(r)
  {
    CloseAllCards(s).(activeCert := None, checkoutOpen := false)
  }

  /** A card reports its new rectangle after a drag: only that key's
      rectangle changes. */
  function OnRectChange(s: LayoutState, key: Key, rect: Rect): (r: LayoutState)
    ensures key in r.cardRects && r.cardRects[key] == rect
    ensures forall k :: k != key ==> (k in r.cardRects <==> k in s.cardRects)
    ensures forall k :: k != key && k in s.cardRects ==> r.cardRects[k] == s.cardRects[k]
    ensures r.openKeys == s.openKeys
    ensures r.activeCert == s.activeCert && r.checkoutOpen == s.checkoutOpen
    ensures Valid(s) && key in s.openKeys ==> Valid(r)
  {
    s.(cardRects := s.cardRects[key := rect])
  }

  /** 1280 x 800 viewport, row at y = 300, first slot: the card goes right of
      the CV, 12 px from the right margin, aligned 40 px above the row. */
  lemma DesktopScenario()
    ensures PlaceCard(Viewport(1280, 800), Some(300.0), 0) == Rect(828.0, 260.0, 440.0, 380.0)
  {
  }
}

=== FILE: pointer.dfy ===
/** Vocabulary shared by the three pointer-driven drag machines: the phase of
    a press, the pointer events they consume, the drag threshold and the
    pointer-capture requests they issue. */
module Pointer {
  import opened Wrappers

  /** Where a press is: no press, pressed but not yet moved far enough,
      or dragging. The sources keep this as two booleans `pending` and
      `dragging` that are never both true. */
  datatype Phase = Idle | Pending | Dragging

  /** A pointer event as the handlers read it. `button` is `None` when the
      event carries no button; `interactive` is what the handler's
      `isInteractiveTarget(e.target)` returns: true when the target is an
      HTML element inside a button, link, form field or `role='button'`
      element, and false for any other target. */
  datatype PointerEvent = PointerEvent(
    pointerId: int,
    button: Option<int>,
    clientX: real,
    clientY: real,
    interactive: bool)

  /** The pointer-capture call a handler makes on its element, if any. */
  datatype Effect = NoEffect | Capture(id: int) | Release(id: int)

  /** The primary-button guard `e.button != null && e.button !== 0`
      negated: events without a button count as primary. */
  predicate IsPrimary(e: PointerEvent)
  {
    e.button.None? || e.button.value == 0
  }

  /** `Math.hypot(dx, dy) < threshold`, stated without a square root.
      A hypotenuse is never negative, so no movement is below a threshold
      that is zero or negative, and a movement below the threshold is
      below it along each axis. */
  function BelowThreshold(dx: real, dy: real, threshold: real): (b: bool)
    ensures b ==> threshold > 0.0
    ensures b ==> -threshold < dx < threshold && -threshold < dy < threshold
  {
    OutsideAxisExceeds(dx, dy, threshold);
    OutsideAxisExceeds(dy, dx, threshold);
    threshold > 0.0 && dx * dx + dy * dy < threshold * threshold
  }

  /** A movement at least `threshold` long along one axis has a squared
      length of at least `threshold` squared. */
  lemma OutsideAxisExceeds(d: real, other: real, threshold: real)
    ensures threshold > 0.0 && (d >= threshold || d <= -threshold) ==>
              d * d + other * other >= threshold * threshold
  {
    if threshold > 0.0 {
      assert other * other >= 0.0;
      if d >= threshold {
        assert d * d >= threshold * d >= threshold * threshold;
      } else if d <= -threshold {
        assert d * d == (-d) * (-d) >= threshold * (-d) >= threshold * threshold;
      }
    }
  }

  /** The threshold is a distance, not a box: five pixels along both axes
      stays inside a six-pixel box yet is more than six pixels away. */
  lemma DiagonalIsEuclidean()
    ensures -6.0 < 5.0 < 6.0 && !BelowThreshold(5.0, 5.0, 6.0)
    ensures forall d: real, t: real {:trigger BelowThreshold(d, d, t)} ::
              BelowThreshold(d, d, t) <==> t > 0.0 && 2.0 * (d * d) < t * t
  {
  }

  /** A movement along one axis only is below the threshold exactly when its
      length is. */
  lemma BelowThresholdOneAxis(d: real, threshold: real)
    requires threshold > 0.0
    ensures BelowThreshold(d, 0.0, threshold) <==> -threshold < d < threshold
  {
    if d >= threshold {
      assert d * d >= threshold * d >= threshold * threshold;
    } else if d <= -threshold {
      assert d * d == (-d) * (-d) >= threshold * (-d) >= threshold * threshold;
    } else if d >= 0.0 {
      assert d * d <= d * threshold < threshold * threshold;
    } else {
      assert d * d == (-d) * (-d) <= (-d) * threshold < threshold * threshold;
    }
  }
}

=== FILE: portfolio.dfy ===
/** The shared portfolio context: viewing mode, the recruiter's selected
    skills and whether the CV is flipped. */
module Portfolio {
  import opened Wrappers
  import opened Seqs

  datatype Mode = Developer | Recruiter

  datatype PortfolioState = PortfolioState(mode: Mode, selectedSkills: seq<string>, isFlipped: bool)

  /** The provider's initial state. */
  function Initial(): (s: PortfolioState)
    ensures s.mode == Developer && s.selectedSkills == [] && !s.isFlipped
  {
    PortfolioState(Developer, [], false)
  }

  /** Reading the context: outside a provider there is no value and the
      hook throws. */
  function UsePortfolio(provided: Option<PortfolioState>): (r: Result<PortfolioState, string>)
    ensures r.Success? <==> provided.Some?
    ensures provided.Some? ==> r.value == provided.value
    ensures provided.None? ==> r.error == "usePortfolio must be used inside PortfolioProvider"
  {
    match provided
    case Some(ctx) => Success(ctx)
    case None => Failure("usePortfolio must be used inside PortfolioProvider")
  }

  /** Select a skill, or deselect it if it is already selected. */
  function ToggleSkill(skills: seq<string>, skill: string): (r: seq<string>)
    ensures skill in r <==> skill !in skills
    ensures skill !in skills ==> r == skills + [skill]
    ensures forall i :: 0 <= i < |r| ==> r[i] in skills || r[i] == skill
    ensures forall i :: 0 <= i < |skills| && skills[i] != skill ==> skills[i] in r
  {
    if skill in skills then RemoveAll(skills, skill) else skills + [skill]
  }

  /** Toggling keeps the selection free of duplicates. */
  lemma ToggleSkillNoDup(skills: seq<string>, skill: string)
    requires NoDup(skills)
    ensures NoDup(ToggleSkill(skills, skill))
  {
    if skill in skills {
      RemovePreservesNoDup(skills, skill);
    }
  }

  /** Toggling an unselected skill twice restores the selection exactly. */
  lemma ToggleTwiceRestores(skills: seq<string>, skill: string)
    requires skill !in skills
    ensures ToggleSkill(ToggleSkill(skills, skill), skill) == skills
  {
    RemoveConcat(skills, [skill], skill);
    RemoveAbsent(skills, skill);
    assert RemoveAll([skill], skill) == [];
  }

  /** Deselecting a selected skill closes its gap; the others keep their
      order. Toggling it back then moves it to the end. */
  lemma ToggleSelectedRemovesInPlace(skills: seq<string>, i: nat)
    requires NoDup(skills) && i < |skills|
    ensures ToggleSkill(skills, skills[i]) == skills[..i] + skills[i + 1..]
    ensures ToggleSkill(ToggleSkill(skills, skills[i]), skills[i]) == skills[..i] + skills[i + 1..] + [skills[i]]
  {
    RemoveAt(skills, i);
  }

  function ClearSkills(s: PortfolioState): (r: PortfolioState)
    ensures r.selectedSkills == []
    ensures r.mode == s.mode && r.isFlipped == s.isFlipped
  {
    s.(selectedSkills := [])
  }
}

=== FILE: seqs.dfy ===
/** Sequence helpers for the ordered lists the components keep: removing
    every occurrence of a value (JavaScript's `filter(k => k !== x)`) and
    duplicate-freedom. */
module Seqs {

  predicate NoDup<T(==)>(xs: seq<T>)
  {
    forall i, j :: 0 <= i < j < |xs| ==> xs[i] != xs[j]
  }

  /** `xs.filter(k => k !== x)`. */
  function RemoveAll<T(==)>(xs: seq<T>, x: T): (r: seq<T>)
    ensures x !in r
    ensures forall i :: 0 <= i < |r| ==> r[i] in xs
    ensures forall i :: 0 <= i < |xs| && xs[i] != x ==> xs[i] in r
    ensures |r| <= |xs|
    decreases |xs|
  {
    if |xs| == 0 then []
    else if xs[0] == x then RemoveAll(xs[1..], x)
    else [xs[0]] + RemoveAll(xs[1..], x)
  }

  /** Removing a value that is absent changes nothing. */
  lemma {:induction false} RemoveAbsent<T>(xs: seq<T>, x: T)
    requires x !in xs
    ensures RemoveAll(xs, x) == xs
    decreases |xs|
  {
    if |xs| > 0 {
      assert x != xs[0];
      RemoveAbsent(xs[1..], x);
      assert xs == [xs[0]] + xs[1..];
    }
  }

  /** Removal distributes over concatenation. */
  lemma {:induction false} RemoveConcat<T>(xs: seq<T>, ys: seq<T>, x: T)
    ensures RemoveAll(xs + ys, x) == RemoveAll(xs, x) + RemoveAll(ys, x)
    decreases |xs|
  {
    if |xs| > 0 {
      assert (xs + ys)[1..] == xs[1..] + ys;
      RemoveConcat(xs[1..], ys, x);
    } else {
      assert xs + ys == ys;
    }
  }

  /** Removal keeps a duplicate-free list duplicate-free. */
  lemma {:induction false} RemovePreservesNoDup<T>(xs: seq<T>, x: T)
    requires NoDup(xs)
    ensures NoDup(RemoveAll(xs, x))
    decreases |xs|
  {
    if |xs| > 0 {
      RemovePreservesNoDup(xs[1..], x);
      var rest := RemoveAll(xs[1..], x);
      assert xs[0] !in xs[1..] by {
        forall j | 0 <= j < |xs[1..]| ensures xs[1..][j] != xs[0] {
          assert xs[1..][j] == xs[j + 1];
        }
      }
      assert xs[0] !in rest;
    }
  }

  /** In a duplicate-free list, removing the element at position `i` closes
      the gap and leaves every other element in its order. */
  lemma {:induction false} RemoveAt<T>(xs: seq<T>, i: nat)
    requires NoDup(xs) && i < |xs|
    ensures RemoveAll(xs, xs[i]) == xs[..i] + xs[i + 1..]
  {
    var x, pre, post := xs[i], xs[..i], xs[i + 1..];
    assert xs == pre + ([x] + post);
    assert x !in pre && x !in post;
    RemoveConcat(pre, [x] + post, x);
    RemoveConcat([x], post, x);
    RemoveAbsent(pre, x);
    RemoveAbsent(post, x);
    assert RemoveAll([x], x) == [];
  }

  /** Appending a value not yet present keeps a list duplicate-free. */
  lemma AppendPreservesNoDup<T>(xs: seq<T>, x: T)
    requires NoDup(xs) && x !in xs
    ensures NoDup(xs + [x])
  {
  }
}

=== FILE: spring.dfy ===
/** One frame of the damped spring that returns a tilted panel to rest. */
module Spring {
  import opened Geometry

  /** Below this magnitude on all four components the motion snaps to rest. */
  const SnapEpsilon: real := 0.02

  datatype Rot = Rot(rx: real, ry: real)
  datatype Vel = Vel(vx: real, vy: real)
  datatype Motion = Motion(rot: Rot, vel: Vel)

  const Rest := Motion(Rot(0.0, 0.0), Vel(0.0, 0.0))

  predicate NearRest(m: Motion)
  {
    && Abs(m.rot.rx) < SnapEpsilon && Abs(m.rot.ry) < SnapEpsilon
    && Abs(m.vel.vx) < SnapEpsilon && Abs(m.vel.vy) < SnapEpsilon
  }

  /** Semi-implicit Euler: the velocity is pulled toward zero angle with
      stiffness `k` and damped by `c`, then the angle moves by the new
      velocity. */
  function Integrate(m: Motion, k: real, c: real): (r: Motion)
    ensures r.vel == Vel((m.vel.vx - k * m.rot.rx) * c, (m.vel.vy - k * m.rot.ry) * c)
    ensures r.rot == Rot(m.rot.rx + r.vel.vx, m.rot.ry + r.vel.vy)
    ensures m.vel == Vel(0.0, 0.0) ==>
              r.rot == Rot((1.0 - k * c) * m.rot.rx, (1.0 - k * c) * m.rot.ry)
    ensures m == Rest ==> r == Rest
  {
    var vx := (m.vel.vx + (-k * m.rot.rx)) * c;
    var vy := (m.vel.vy + (-k * m.rot.ry)) * c;
    Motion(Rot(m.rot.rx + vx, m.rot.ry + vy), Vel(vx, vy))
  }

  /** One spring frame: integrate, then snap to exact rest when all four
      components are below `SnapEpsilon`. */
  function Advance(m: Motion, k: real, c: real): (r: Motion)
    ensures r == Rest || !NearRest(r)
    ensures r == Integrate(m, k, c) || (r == Rest && NearRest(Integrate(m, k, c)))
    ensures NearRest(Integrate(m, k, c)) ==> r == Rest
    ensures m == Rest ==> r == Rest
  {
    var n := Integrate(m, k, c);
    if NearRest(n) then Rest else n
  }

  function Negate(m: Motion): Motion
  {
    Motion(Rot(-m.rot.rx, -m.rot.ry), Vel(-m.vel.vx, -m.vel.vy))
  }

  /** The spring has no preferred direction: mirroring the motion mirrors
      the step. */
  lemma StepMirror(m: Motion, k: real, c: real)
    ensures Advance(Negate(m), k, c) == Negate(Advance(m, k, c))
  {
    var n := Integrate(m, k, c);
    assert (-m.vel.vx + (-k * -m.rot.rx)) * c == -((m.vel.vx + (-k * m.rot.rx)) * c);
    assert (-m.vel.vy + (-k * -m.rot.ry)) * c == -((m.vel.vy + (-k * m.rot.ry)) * c);
    assert Integrate(Negate(m), k, c) == Negate(n);
    assert NearRest(Negate(n)) == NearRest(n);
  }
}

=== FILE: tilt.dfy ===
/** What the two drag-to-rotate surfaces share: the press-time snapshot, the
    clamped rotation a drag asks for, and the holographic highlight. Each
    surface supplies its own gains, limits and glow span. */
module Tilt {
  import opened Geometry
  import opened Spring

  /** Pointer position and rotation at press time. */
  datatype Snapshot = Snapshot(x: real, y: real, rx: real, ry: real)

  /** The highlight: pointer position within the surface and glow strength. */
  datatype Holo = Holo(x: real, y: real, intensity: real)

  /** Degrees per pixel of vertical (`gainX`) and horizontal (`gainY`)
      travel, and the rotation limits about each axis. */
  datatype Limits = Limits(gainX: real, gainY: real, maxRx: real, maxRy: real)

  /** One axis of a drag: the rotation at press time plus `d` pixels of
      travel at `gain` degrees per pixel, held within `max` degrees. */
  function Axis(base: real, d: real, gain: real, max: real): (r: real)
    requires max >= 0.0
    ensures -max <= r <= max
    ensures -max <= base + d * gain <= max ==> r == base + d * gain
    ensures base + d * gain > max ==> r == max
    ensures base + d * gain < -max ==> r == -max
  {
    Clamp(base + d * gain, -max, max)
  }

  /** With a non-negative gain, more travel never gives less rotation. */
  lemma AxisMonotone(base: real, d1: real, d2: real, gain: real, max: real)
    requires max >= 0.0 && gain >= 0.0 && d1 <= d2
    ensures Axis(base, d1, gain, max) <= Axis(base, d2, gain, max)
  {
    ScaleMonotone(d1, d2, gain);
    ClampMonotone(base + d1 * gain, base + d2 * gain, -max, max);
  }

  /** The rotation a drag displacement asks for, clamped per axis:
      horizontal travel turns the surface about its vertical axis, vertical
      travel about its horizontal axis (upward travel tilts the top away). */
  function DragRotation(lim: Limits, start: Snapshot, dx: real, dy: real): (r: Rot)
    requires lim.maxRx >= 0.0 && lim.maxRy >= 0.0
    ensures -lim.maxRy <= r.ry <= lim.maxRy && -lim.maxRx <= r.rx <= lim.maxRx
    ensures -lim.maxRy <= start.ry + dx * lim.gainY <= lim.maxRy ==> r.ry == start.ry + dx * lim.gainY
    ensures -lim.maxRx <= start.rx - dy * lim.gainX <= lim.maxRx ==> r.rx == start.rx - dy * lim.gainX
    ensures start.ry + dx * lim.gainY > lim.maxRy ==> r.ry == lim.maxRy
    ensures start.ry + dx * lim.gainY < -lim.maxRy ==> r.ry == -lim.maxRy
    ensures start.rx - dy * lim.gainX > lim.maxRx ==> r.rx == lim.maxRx
    ensures start.rx - dy * lim.gainX < -lim.maxRx ==> r.rx == -lim.maxRx
  {
    assert start.rx + (-dy) * lim.gainX == start.rx - dy * lim.gainX;
    Rot(Axis(start.rx, -dy, lim.gainX, lim.maxRx), Axis(start.ry, dx, lim.gainY, lim.maxRy))
  }

  /** With non-negative gains, dragging further right never turns the
      surface back, and dragging further down never tilts it back up. */
  lemma DragRotationMonotone(lim: Limits, start: Snapshot, dx1: real, dx2: real, dy1: real, dy2: real)
    requires lim.maxRx >= 0.0 && lim.maxRy >= 0.0 && lim.gainX >= 0.0 && lim.gainY >= 0.0
    requires dx1 <= dx2 && dy1 <= dy2
    ensures DragRotation(lim, start, dx1, dy1).ry <= DragRotation(lim, start, dx2, dy2).ry
    ensures DragRotation(lim, start, dx1, dy1).rx >= DragRotation(lim, start, dx2, dy2).rx
  {
    AxisMonotone(start.ry, dx1, dx2, lim.gainY, lim.maxRy);
    AxisMonotone(start.rx, -dy2, -dy1, lim.gainX, lim.maxRx);
  }

  /** Glow strength: total tilt over `span` degrees, capped to [0, 1]. */
  function Intensity(rot: Rot, span: real): (r: real)
    requires span > 0.0
    ensures 0.0 <= r <= 1.0
    ensures r == 0.0 <==> rot.rx == 0.0 && rot.ry == 0.0
    ensures Abs(rot.rx) + Abs(rot.ry) <= span ==> r * span == Abs(rot.rx) + Abs(rot.ry)
    ensures Abs(rot.rx) + Abs(rot.ry) >= span ==> r == 1.0
  {
    var total := Abs(rot.rx) + Abs(rot.ry);
    QuotientBounds(total, span);
    Clamp(total / span, 0.0, 1.0)
  }

  lemma QuotientBounds(total: real, span: real)
    requires total >= 0.0 && span > 0.0
    ensures (total / span) * span == total
    ensures total <= span ==> total / span <= 1.0
    ensures total >= span ==> total / span >= 1.0
    ensures total / span == 0.0 <==> total == 0.0
  {
    var q := total / span;
    assert q * span == total;
    if q > 1.0 {
      ScaleStrict(1.0, q, span);
    }
    if q < 1.0 {
      ScaleStrict(q, 1.0, span);
    }
    if q > 0.0 {
      ScaleStrict(0.0, q, span);
    }
    if q < 0.0 {
      ScaleStrict(q, 0.0, span);
    }
  }

  lemma ProductNonNegative(a: real, b: real)
    requires a >= 0.0 && b >= 0.0
    ensures a * b >= 0.0
  {
  }

  lemma ScaleMonotone(a: real, b: real, c: real)
    requires a <= b && c >= 0.0
    ensures a * c <= b * c
  {
    ProductNonNegative(b - a, c);
    assert (b - a) * c == b * c - a * c;
  }

  lemma ScaleStrict(a: real, b: real, c: real)
    requires a < b && c > 0.0
    ensures a * c < b * c
  {
    assert b * c - a * c == (b - a) * c;
  }

  /** The highlight for a pointer at `(clientX, clientY)` over a surface whose
      top-left corner is `origin`. */
  function HoloAt(clientX: real, clientY: real, origin: Point, rot: Rot, span: real): (h: Holo)
    requires span > 0.0
    ensures h.x + origin.x == clientX && h.y + origin.y == clientY
    ensures h.intensity == Intensity(rot, span)
  {
    Holo(clientX - origin.x, clientY - origin.y, Intensity(rot, span))
  }
}

=== FILE: wrappers.dfy ===
/** Optional and fallible values, the model's stand-in for JavaScript's
    `null`/`undefined` and for thrown errors. */
module Wrappers {

  /** A value that may be absent (`null` or `undefined` in the source). */
  datatype Option<+T> = None | Some(value: T) {

    /** The value, or `default` when absent (JavaScript's `??`). */
    function GetOr(default: T): (r: T)
      ensures Some? ==> r == value
      ensures None? ==> r == default
    {
      match this
      case Some(v) => v
      case None => default
    }
  }

  /** The outcome of a call that may throw. */
  datatype Result<+R, +E> = Success(value: R) | Failure(error: E)
}
